=== FILE: README.md ===
# GBAWAVE player core in Dafny

This project models the streaming core of GBAWAVE, a Game Boy Advance
player for GSM 06.10 speech-compressed audio stored in a GBFS asset
archive. The core is the endless loop `streaming_run` in `gsmplay.c`. On
each display frame (one "tick") it does the following:

- reads the keys and derives the commands: SELECT lock, START pause,
  L/R seek, LEFT/RIGHT track stepping;
- (re)starts a track when asked, resetting the decoder with `gsm_init`
  and looking up the track's picture name with `hud_new_song`;
- fills one 608-byte sound buffer, by 2:1 linear interpolation of
  decoded samples or with the held last level while paused;
- points DMA channel 1 at the freshly filled buffer with
  `dsound_switch_buffers`, and swaps which buffer is filled next.

It also models the self-contained status display helpers of `hud.c`:

- `upcvt_4bit`;
- `decimal_time` and its `BCD_LOOP`;
- `hud_frame`, `hud_wline` and `hud_cls`;
- `bmp16_rect`;
- the name built by `hud_new_song`.

The model is functional. `Player.Tick` maps an engine state and a key
word to the next state, the picture to show, and the DMA register writes.
The GSM decoder (`Gsm.Decoder`) and the archive contents (`Gbfs.Archive`)
are parameters. Modules follow the source:

| module | models |
|---|---|
| `Machine` | C integer widths, the arithmetic shifts `>> 8` and `>> 9`, outcome types |
| `Joypad` | the key register, `j` and `cmd` of the loop |
| `Gbfs` | the archive as a list of named objects, and `gbfs_count_objs(fs)/2` |
| `Gsm` | the decoder record and `gsm_init`; the decode call as a parameter |
| `Dma` | DMA channel 1 registers and `dsound_switch_buffers` |
| `Navigation` | lock and pause toggles, seeking, track stepping, and the restart offset |
| `Resampler` | the two fill loops: the refill, the interpolation and the paused hold |
| `Player` | one whole tick and the properties that span ticks |
| `Hud` | the `hud.c` helpers |

Pointers into the current track (`src_pos`, `src_end`) are offsets from
`src`. At startup all three pointers are NULL. The model shows this with
`loaded == false`: the comparison `src_pos >= src_end` then forces a
track step, and `cur_song` wraps from `UINT_MAX` to 0, so the first tick
loads track 0. A decode whose 33-byte frame would lie outside the track
makes a tick return `OutOfTrack(offset)` instead of modelling what the C
code would read there. `Player.TickOnFrames` proves this never happens
when the tracks are whole frames, the read offset is on a frame boundary,
and a restart lands inside its track.

That last condition is where the source has a flaw (see "## Findings"):
a track started with L plays from 60 frames before its end, even when it
is shorter than that. The restart offset is therefore a parameter of the
tick, `Navigation.RestartRule`. `AsWritten` is the source's offset, and
`Player.Tick`, the source's tick, uses it. `Corrected` is the offset the
code evidently intends, which starts a short track at its first byte.
Under `AsWritten`, the lemmas that promise no read outside the track
assume every track is at least 60 frames long; under `Corrected` they
need no such assumption.

`Player.Tick` reads the key word into `Navigation.Controls` (the commands,
the new `last_joy`, and the lock bits) and hands them to
`Player.TickWith`. Most tick lemmas are stated for `TickWith` with any
controls and either restart rule, so they hold whatever keys are held.

## Model

| member | source | states |
|---|---|---|
| Machine.Quantize | gsmplay.c:246 | `s >> 8` on a 16-bit sample rounds toward negative infinity and yields a value that fits a `signed char` |
| Machine.Midpoint | gsmplay.c:245 | `(a + b) >> 9` is the floor of the average of two samples over 256, and fits a `signed char` |
| Joypad.ButtonsOf | pin8gba.h:260-269 | a button is in the set exactly when its `JOY_*` bit is set in the word |
| Joypad.Pressed | gsmplay.c:154 | a button is held exactly when its active-low register bit reads 0; no bit above the ten buttons is set |
| Joypad.Commands | gsmplay.c:155 | a button commands exactly when it is held and was not held before, except L and R, which command on every held tick; nothing that is not held commands |
| Gsm.Init | gsmplay.c:61-65 | the reset decoder record is all zero except `nrp`, which is 40; its size is unchanged |
| Dma.SwitchBuffers | gsmplay.c:32-45 | the channel is stopped after the first write and stays stopped until the last; afterwards it streams the given buffer to FIFO A (0x040000a0), one word per request, with control 0xB640, whatever its prior state |
| Navigation.Toggle | gsmplay.c:165 | `locked ^= bit` flips that bit and no other |
| Navigation.ReadControls | gsmplay.c:154-171 | the lock flips exactly on a SELECT command; while locked no command survives; pause flips exactly on a surviving START command; other lock bits are unchanged; the new `last_joy` is the held word |
| Navigation.LockedControls | gsmplay.c:164-171 | while locked, keys that do not press SELECT leave no command and the lock bits as they were; only the remembered key word changes |
| Navigation.NothingHeldCommandsNothing | gsmplay.c:154-155 | with no key held no button commands |
| Navigation.AllHeldBefore | gsmplay.c:147-171 | when every key counted as held before, only L and R can command and nothing gets locked or paused |
| Navigation.Seek | gsmplay.c:173-186 | L moves the offset back 1650 and R forward 1650; LEFT is added exactly when L lands before the track; RIGHT is added exactly when the offset is at or past the end or no track is loaded; nothing else is added |
| Navigation.NextTrack | gsmplay.c:188-194 | the next track is below the track count, is `song + 1` when that is in range, and wraps to 0 from the last track or from `UINT_MAX` |
| Navigation.PrevTrack | gsmplay.c:196-203 | the previous track wraps from 0 to the last track and otherwise is `song - 1` |
| Navigation.StepsAreInverse | gsmplay.c:188-203 | stepping forward then back, or back then forward, returns to the same track |
| Navigation.ChangeTrack | gsmplay.c:188-203 | a start is requested exactly when RIGHT or LEFT is present; each alone steps once; both together cancel when the old track was valid; the result is a valid track once RIGHT is present or the old track was valid |
| Navigation.RestartOffset | gsmplay.c:212-215 | the corrected restart rule of the finding at gsmplay.c:212-213, not the source's: a started track plays from its first byte, or from 60 frames before its end when started with L and at least 60 frames long; the offset is always inside the track and on a frame boundary of a whole-frames track |
| Navigation.RestartOffsetAsWritten | gsmplay.c:212-213 | as written, the L restart is `len - 1980`, which is before the track's first byte whenever the track is shorter than 60 frames |
| Navigation.RulesAgree | gsmplay.c:212-215 | the source's restart offset and the corrected one agree exactly when the start is not an L restart or the track is at least 60 frames long; the source's offset is then inside the track, and on a frame boundary of a whole-frames track |
| Resampler.InterpolateAt | gsmplay.c:243-262 | byte `2k` of the output is the midpoint of sample `k` and the one before it; byte `2k + 1` is sample `k` quantized |
| Resampler.InterpolateLength | gsmplay.c:243-262 | interpolation writes two bytes per sample |
| Resampler.InterpolateAppend | gsmplay.c:243-262 | interpolating two runs in turn, the second continuing from the last sample of the first, equals interpolating them joined |
| Resampler.InterpolatedBytes | gsmplay.c:245-246 | every interpolated byte fits a `signed char`, and the last byte is the last sample quantized |
| Resampler.EmitSample | gsmplay.c:244-247 | one decoded sample yields the interpolation of that single sample after the last one |
| Resampler.EmitGroup | gsmplay.c:243-262 | one loop iteration reads the next four samples, writes their interpolation after the last sample, and moves the read index on by four |
| Resampler.Refill | gsmplay.c:235-241 | a refill happens only once the frame is used up; it decodes only before the end of the track; it always moves the offset on by 33 and resets the read index; a rejected frame keeps the decoder and samples; past the end the old samples are kept; it reads outside the track exactly when the frame starts before the end but is not wholly inside; a refill that succeeds leaves the frame `NextFrame` names |
| Resampler.StreamAfterRefill | gsmplay.c:235-241 | a sample a whole frame further on in a cursor's stream is the same sample of the stream after one refill |
| Resampler.FillGroups | gsmplay.c:232-263 | a fill that stays inside the track reads the track's own stream: the `k`-th sample after the read index is sample `(index + k) mod 160` of the frame decoded after `(index + k) div 160` more refills from the read offset, frame after frame; the bytes are the interpolation of those samples, continuing from the previous last sample; every refill moves the offset exactly one frame; the decoder state and samples the fill leaves for the next one are those after its refills, frame after frame from the read offset |
| Resampler.StreamStep | gsmplay.c:232-262 | the stream a cursor plays is the four samples its refill leaves to read, then the stream of the cursor after that group |
| Resampler.Prepend | gsmplay.c:243-262 | one iteration put in front of the fill the following iterations made is the fill of one more iteration: the same stream, its interpolation, and the offsets and refill count moved on |
| Resampler.RefillInTrack | gsmplay.c:235-241 | from a frame boundary of a whole-frames track a refill never reads outside the track and leaves the offset on a frame boundary |
| Resampler.FillContinuesStream | gsmplay.c:232-263 | what the next fill reads from the cursor a fill leaves (offset, index, decoder and samples) continues the same stream: the fill's samples followed by the next `n` from its end are the first `4 * groups + n` from its start |
| Resampler.DecodingAfterAdd | gsmplay.c:235-242 | `a + b` refills from an offset are `b` refills, `a` frames further on, after the first `a` |
| Resampler.FillGroupsInTrack | gsmplay.c:232-263 | from a frame boundary of a whole-frames track, however many iterations run, nothing outside the track is read |
| Resampler.RefillsPerTick | gsmplay.c:232-241 | reading 304 samples from a frame of 160 takes one or two refills |
| Resampler.FillBytes | gsmplay.c:232-263 | any number of iterations writes eight bytes each, all fitting a `signed char`, ending with the last sample quantized |
| Resampler.PlayingFill | gsmplay.c:232-263 | a playing tick writes exactly 608 bytes that fit the FIFO, reads 304 samples, refills once or twice, and ends on the last sample read |
| Resampler.FillPaused | gsmplay.c:223-230 | a paused tick writes 608 copies of the held level, all fitting a signed byte, reads no sample, takes no refill and leaves the cursor alone |
| Resampler.RefillBeforeTrack | gsmplay.c:235-241 | from an offset before the track, a fill that reaches a refill reads outside the track at that offset |
| Resampler.FailurePassesThrough | gsmplay.c:232-244 | within a frame, when the iterations after the first read outside the track, the whole fill fails at the same offset |
| Resampler.FailsAtRefill | gsmplay.c:235-238 | a fill whose first refill reads outside the track fails there |
| Player.Navigate | gsmplay.c:154-217 | the input part of a tick always leaves a loaded, valid track that is the archive's; a track starts exactly when the seek leaves RIGHT or LEFT in the commands, and the track is the one those commands step to; a start resets the decoder, loads that track, sets the offset by the restart rule (the source's in `Tick`) and keeps the read index, last sample, samples and lock bits; without a start the offset is the one the seek gives, and only the offset, key word and lock bits change; the sound buffers and DMA are untouched |
| Player.FillTick | gsmplay.c:223-263 | the fill writes exactly one 608-byte buffer that fits the FIFO; paused, it never fails and keeps the cursor; playing, it is the interpolating fill; it moves the offset by whole frames and cannot read outside a whole-frames track from a frame boundary |
| Player.NavigateOnFrames | gsmplay.c:173-217 | seeking and (re)starting keep the read offset on a frame boundary inside or past a whole-frames track, when the restart rule lands inside the track (the corrected rule always, the source's when every track is at least 60 frames) |
| Player.Tick | gsmplay.c:152-272 | a tick keeps the engine valid: a loaded track is a real one and its bytes are the archive's, the read index stays on a group of four, both sound buffers stay full, and DMA never streams the buffer filled next |
| Player.TickWith | gsmplay.c:164-272 | a tick after the key read keeps the engine valid, whatever commands and lock bits the read gave |
| Player.TickSwitchesBuffers | gsmplay.c:156-272 | a tick fills the buffer DMA is not reading, then points DMA at it with the switch writes whatever the registers held, and swaps the next buffer; the other buffer is untouched |
| Player.TickOnFrames | gsmplay.c:173-263 | with whole-frames tracks, the offset on a frame boundary and a restart rule that lands inside the track (the corrected rule always, the source's when every track is at least 60 frames), a tick never reads outside a track, and the next tick starts on a frame boundary again |
| Player.TickKeepsNavigation | gsmplay.c:205-272 | the fill part of a tick keeps the track, the lock bits and the picture request the input part chose |
| Player.Initial | gsmplay.c:144-150 | on entry no track is loaded and `cur_song` is `UINT_MAX`, nothing is locked, every key counts as held, the read offset is 0 with the sample index at the end of a frame so the first fill decodes, the last sample is 0, buffer 0 is filled first and both buffers are silent |
| Player.InitialValid | gsmplay.c:144-150 | the loop's starting state is valid and on a frame boundary |
| Player.FirstTick | gsmplay.c:144-217 | whatever keys are held, the source's first tick loads track 0 and its picture, unlocked and unpaused, and succeeds when tracks are whole frames and at least 60 frames long |
| Player.FirstTickWith | gsmplay.c:144-217 | the same for any controls that command only L and R and lock nothing, under either restart rule; with the corrected rule whole frames suffice |
| Player.FirstNavigation | gsmplay.c:144-211 | before any track is loaded, the input part starts track 0 and asks for its picture when only L and R can command |
| Player.LockedIgnoresKeys | gsmplay.c:164-171 | while locked, a tick with keys that do not press SELECT equals a tick with no key held, apart from the remembered key word |
| Player.NavigateByControls | gsmplay.c:158-217 | the input part sees the keys only through the commands and lock bits read from them; the remembered key word is all that differs |
| Player.FinishByEngine | gsmplay.c:223-272 | the fill and the buffer switch do not read the remembered key word |
| Player.EndOfTrackAdvances | gsmplay.c:185-194 | while the keys are locked and SELECT is not pressed to unlock them, reaching the end of a track starts the next track from its first byte with a fresh decoder |
| Player.SeekPastEnd | gsmplay.c:180-194 | seeking forward past the end starts the next track from its first byte with a fresh decoder |
| Player.PausedTick | gsmplay.c:223-230 | under any controls that leave the player paused, a paused tick fills the buffer with the held level and leaves the read index, last sample and samples as they were |
| Player.FinishPlaying | gsmplay.c:232-272 | playing, the buffer the tick fills holds exactly the playing loop's bytes, and the cursor is where the loop left it |
| Player.Finish | gsmplay.c:223-272 | paused, the fill cannot fail and the cursor stays; after a fill, the filled buffer holds 608 bytes, DMA streams from it, the other buffer is kept and becomes the next to fill, and nothing else of the state or the picture request changes |
| Player.PlayingTickResumes | gsmplay.c:232-263 | the cursor a playing tick leaves is where the next fill continues the same stream: nothing skipped, nothing read twice |
| Player.PlayingTickPlaysTrack | gsmplay.c:232-263 | the buffer a playing tick fills is the 2:1 interpolation of the next 304 samples of its track's stream, from the read offset and index the input part left, continuing from the sample the previous tick ended on |
| Player.PlayingTickEndsOnLastSample | gsmplay.c:259-262 | the last byte of a playing tick is the last sample it read, quantized |
| Player.PauseHoldsLastByte | gsmplay.c:223-262 | the buffer of a paused tick that follows a playing tick repeats the playing tick's last byte, whatever controls either tick read |
| Player.RestartAsWrittenReadsBeforeTrack | gsmplay.c:212-238 | as written, an L restart of a track shorter than 60 frames makes that tick's fill decode before the track's first byte, whatever the decoder and cursor |
| Player.RestartReadsInsideTrack | gsmplay.c:205-241 | with the corrected restart offset, the fill after any track start reads only inside a whole-frames track |
| Player.AsWrittenRestartFails | gsmplay.c:205-238 | the source's tick that starts a track shorter than 60 frames with L, not paused, decodes `1980 - len` bytes before the track's first byte |
| Player.CorrectedRestartPlays | gsmplay.c:205-241 | with the corrected restart offset, a tick that starts a track of a whole-frames archive never reads outside it |
| Hud.SpreadNibble | hud.c:24-29 | after the inner loop, nibble `i` of the word holds bit `n - 1 - i` of the source byte |
| Hud.SpreadByte | hud.c:24-30 | after all eight rounds the word fits 32 bits and nibble `i` holds bit `7 - i` of the byte |
| Hud.ExpandByte | hud.c:18-31 | one font byte becomes a 32-bit word whose nibble `i` is bit `7 - i` of the byte, so every pixel colour is 0 or 1 |
| Hud.Upcvt4bit | hud.c:14-32 | one 32-bit word per input byte, each the byte's pixels with the top bit as nibble 0 |
| Hud.BcdDigit | hud.c:95-110 | what is taken is always digit times `fac` and the digit is at most 15; when the quotient is below 16 the digit is the quotient and the remainder is what is left |
| Hud.ClockReads | hud.c:87-112 | digits with place values 600, 60, 10 and 1, the last two at most 5 and 9, read as the minutes and then the seconds of the time |
| Hud.DecimalTime | hud.c:87-121 | for times up to 5999 the four digits are minutes then seconds (MM:SS), each at most 9, 9, 5, 9, and 600, 60, 10 and 1 times the digits add up to the time |
| Hud.TextLength | hud.c:39 | the length of a text is the count of characters before its first NUL, or all of them when there is none |
| Hud.HudWline | hud.c:34-52 | text line `y` shows the first 28 characters up to the NUL as tile `2c` above and `2c + 1` below, from column 1 of rows `2y` and `2y + 1`; the rest of the 28 columns are blanked with 0x40 and 0x41; no other cell changes |
| Hud.HudCls | hud.c:54-59 | the first 640 cells become 0x40 and the rest are unchanged |
| Hud.Clamped | hud.c:133-135 | the time shown is the elapsed seconds when they are at most 5999 (99:59), and 5999 otherwise, never wrapped |
| Hud.FrameLine | hud.c:123-150 | the time is clamped to 5999, never wrapped; column 0 shows glyph 12 exactly when SELECT locks; column 1 shows glyph 16 exactly when START pauses; then the track digits, the clamped time's minutes and seconds as MM:SS at columns 7 to 11, and a NUL at column 12; with track number digits the line's `strlen` is 12 |
| Hud.RowSlices | hud.c:34-52 | a written text line reads back as the glyphs of its shown text followed by blanks |
| Hud.HudFrame | hud.c:123-152 | the line is the status line; with track number digits, its twelve characters fill columns 1 to 12 of text row 9 and the rest of the row is blank; whatever the track digits, nothing outside that row changes |
| Hud.CellUnique | hud.c:192-194 | in rows of a fixed width, a cell index has exactly one row and one column |
| Hud.Bmp16Rect | hud.c:182-195 | with the unsigned width `(right - left) mod 2^32` and height `(bottom - top) mod 2^32`, the cells written are `top * (pitch / 2) + left + iy * (pitch / 2) + ix` for `iy` below the height and `ix` below the width, a long run going on into the next row; the fill stays in the framebuffer exactly when nothing is written or the first and last of those cells are inside it; then exactly those cells take the low 16 bits of `clr` and every other cell keeps its value |
| Hud.RectCells | hud.c:187-194 | when the edges are in order and the rectangle fits in one row, the cells written are exactly those in rows `[top, bottom)` and columns `[left, right)` |
| Hud.ImageName | hud.c:173-176 | the picture name is "img" followed by the track name, three characters longer, and with its NUL it fits the `strlen(name) + 6` buffer |

## Left out

- Memory-mapped I/O (pin8gba.h) is not modelled as volatile registers. The key register is a tick parameter. DMA channel 1 is a record of register values. The `DMA_*`, `JOY_*` and timer constants appear as literals.
- Hardware setup and waiting are left out because they hold no stateable logic: `init_sound`, `main`, `wait4vbl`, `copr_wait`, `hud_init`, the inline no-op assembly, and the `PROFILE_*` macros.
- isr.c and the build tools (tools/catbin.c, tools/padbin.c) are not part of this model. They are interrupt plumbing and batch file utilities outside the playback core.
- The GSM 06.10 decoder is a function parameter, not an algorithm. So are the GBFS queries and the ARM helpers `fracumul` and `dv`. `Hud.FrameLine` takes the already scaled seconds, and the track digits `hud_clock.trackno` are a parameter.
- The progress bar at gsmplay.c:270 computes its width in `double` and is not modelled; floating point is out of scope. `Hud.Bmp16Rect` is modelled on its own.
- The commented-out `hud_frame` call and the dead `#if 0` block `pre_decode_run` (gsmplay.c:81-132) are not modelled as calls. `hud_frame` itself is modelled as `Hud.HudFrame`.
- The real-time deadline (fill before the next vertical blank) is not modelled; the model has no clock.
- Player.Tick: a decode that would read outside the current track stops the model with `OutOfTrack` instead of decoding whatever bytes the C code would read there.
- Gbfs.Playable: the model assumes the archive holds at least one track and at most `UINT_MAX` of them. The source does not check this. With zero tracks (fewer than two objects), RIGHT resets `cur_song` to 0: that object exists and plays when the archive holds exactly one object, and is missing when the archive is empty. LEFT from `cur_song` 0 sets it to `0 - 1`, which is `UINT_MAX`, and asks `gbfs_get_nth_obj` for an object that does not exist.
- Hud.Bmp16Rect: a fill that would write any cell outside the framebuffer returns `None` instead of modelling the write into other memory. An odd pitch, which would make the 16-bit pointer misaligned, is excluded. The `int` by `u32` products of the address computation are taken as exact integers, so their 32-bit wrap-around is not modelled.
- Hud.HudWline: requires `y < 16` so that both tile rows lie in screen block 31. A text without a NUL ends at the end of the sequence.
- Decode failure: the decoder's `Malformed` result leaves its state and `out_samples` unchanged, so the previous frame's samples are played again. This follows the code, which ignores the return value of `gsm_decode`, rather than a design that holds the last sample's level.
- Gsm.Init: the decoder record's fields other than `nrp` are an opaque list of words; their layout is not modelled.
- The NULL pointers before the first track are modelled only through the two comparisons that read them. The C compares addresses, and the model takes the outcome NULL arithmetic gives there (a forced step to track 0).

## Findings

| source | as written | input that shows it | evidently intended | confidence | as-written member | corrected member |
|---|---|---|---|---|---|---|
| gsmplay.c:212-213 | A track started with L in the command word plays from `src + src_len - 33 * 60`, with no check of the track's length. | A 1848-byte track (56 frames) started with L held, e.g. by pressing L during the first 50 frames of the following track. The offset becomes -132, and that tick's first refill decodes 132 bytes before the track. | Restart 60 frames before the end only when the track is that long; otherwise start at its first byte, so decoding stays inside the track. | not executed; the arithmetic is certain, the intent is inferred | Player.AsWrittenRestartFails | Player.CorrectedRestartPlays |

=== FILE: dma.dfy ===
/**
 * DMA channel 1 as the sound FIFO feeder (gsmplay.c `dsound_switch_buffers`).
 * The channel is a record of its four registers; a buffer switch is the
 * sequence of register writes the C code performs, applied in order.
 */
module Dma {

  /** Control register bits (pin8gba.h). */
  const DstUnchanged: bv16 := 0x0040
  const SrcIncrement: bv16 := 0x0000
  const Repeat: bv16 := 0x0200
  const Words32: bv16 := 0x0400
  const SoundFifoTiming: bv16 := 0xB000
  const Enable: bv16 := 0x8000

  /** The address of sound FIFO A, where every transferred word goes. */
  const FifoA := 0x040000a0

  /**
   * What the source register points at: one of the two `double_buffers`,
   * or a raw address (the power-on value, before the first switch).
   */
  datatype Source = Address(addr: nat) | DoubleBuffer(index: nat)

  datatype Channel = Channel(src: Source, dst: nat, count: nat, control: bv16)

  datatype Write = SetControl(value: bv16) | SetSource(src: Source) | SetDest(addr: nat) | SetCount(n: nat)

  /** The channel registers at power-on. */
  const PowerOn := Channel(Address(0), 0, 0, 0)

  predicate Running(ch: Channel) {
    ch.control & Enable != 0
  }

  function Apply(ch: Channel, w: Write): Channel {
    match w
    case SetControl(v) => ch.(control := v)
    case SetSource(s) => ch.(src := s)
    case SetDest(a) => ch.(dst := a)
    case SetCount(n) => ch.(count := n)
  }

  /** The channel after the writes `ws`, performed first to last. */
  function ApplyAll(ch: Channel, ws: seq<Write>): Channel
    decreases |ws|
  {
    if ws == [] then ch else Apply(ApplyAll(ch, ws[..|ws| - 1]), ws[|ws| - 1])
  }

  /** The control word of a running sound stream. */
  const StreamControl: bv16 := DstUnchanged | SrcIncrement | Repeat | Words32 | SoundFifoTiming | Enable

  /**
   * The register writes of `dsound_switch_buffers(double_buffers[buf])`:
   * stop the channel, point it at the buffer and the FIFO, one word per
   * request, and start it again in repeating sound-FIFO mode.
   */
  function SwitchWrites(buf: nat): seq<Write> {
    [SetControl(0), SetSource(DoubleBuffer(buf)), SetDest(FifoA), SetCount(1), SetControl(StreamControl)]
  }

  /**
   * A buffer switch is a handshake: after its first write and until its
   * last, the channel is stopped, so it never streams from a half-updated
   * source; afterwards it streams `buf` into FIFO A whatever it did before.
   */
  lemma SwitchBuffers(ch: Channel, buf: nat)
    ensures var ws := SwitchWrites(buf);
      forall k :: 1 <= k < |ws| ==> !Running(ApplyAll(ch, ws[..k]))
    ensures ApplyAll(ch, SwitchWrites(buf)) == Channel(DoubleBuffer(buf), FifoA, 1, 0xB640)
    ensures Running(ApplyAll(ch, SwitchWrites(buf)))
  {
    var ws := SwitchWrites(buf);
    assert ws[..1][..0] == [];
    assert ws[..2][..1] == ws[..1];
    assert ws[..3][..2] == ws[..2];
    assert ws[..4][..3] == ws[..3];
    assert ws[..5][..4] == ws[..4];
    assert ws[..5] == ws;
    assert ApplyAll(ch, ws[..1]).control == 0;
    assert ApplyAll(ch, ws[..2]).control == 0;
    assert ApplyAll(ch, ws[..3]).control == 0;
    assert ApplyAll(ch, ws[..4]).control == 0;
  }
}

=== FILE: gbfs.dfy ===
/**
 * The cartridge asset archive, seen only through the three queries the
 * player makes of it: how many objects it holds, and the name and bytes of
 * the n-th object. The archive format itself is not part of this model.
 */
module Gbfs {
  import opened Machine

  datatype Object = Object(name: string, data: seq<Byte>)

  datatype Archive = Archive(objects: seq<Object>)

  /**
   * `gbfs_count_objs(fs) / 2`: the archive holds one picture per track,
   * so only the first half of the objects are played.
   */
  function TrackCount(fs: Archive): nat {
    |fs.objects| / 2
  }

  /** What the player needs of an archive: at least one track, numbered by an `unsigned int`. */
  predicate Playable(fs: Archive) {
    1 <= TrackCount(fs) <= U32Max
  }

  /** `gbfs_get_nth_obj(fs, i, name, &len)` for an index in range. */
  function Nth(fs: Archive, i: nat): (o: Object)
    requires i < |fs.objects|
    ensures o in fs.objects
  {
    fs.objects[i]
  }

  /** Every track is a whole number of 33-byte GSM frames. */
  predicate FrameAligned(fs: Archive) {
    forall i :: 0 <= i < TrackCount(fs) ==> |fs.objects[i].data| % 33 == 0
  }
}

=== FILE: gsm.dfy ===
/**
 * The GSM 06.10 full-rate decoder as the player uses it: a state record
 * the player resets itself, and a decode call that turns one 33-byte frame
 * into 160 samples. The decoder's algorithm is not part of this model; it
 * is a parameter of every operation that decodes.
 */
module Gsm {
  import opened Machine

  /** Bytes in one compressed frame (`sizeof(gsm_frame)`). */
  const FrameBytes := 33

  /** Samples decoded from one frame (the length of `out_samples`). */
  const FrameSamples := 160

  type Frame = s: seq<Int16> | |s| == FrameSamples witness seq(160, _ => 0)

  /**
   * `struct gsm_state`: the field `nrp` the player sets explicitly, and the
   * remaining fields as a flat list of words whose layout the model does
   * not fix.
   */
  datatype GsmState = GsmState(nrp: int, words: seq<int>)

  /**
   * What one call of `gsm_decode` does: either it decodes the frame, giving
   * a new state and 160 samples, or it rejects the frame and touches
   * neither the state nor the sample buffer. The player ignores which.
   */
  datatype Decoded = Decoded(state: GsmState, samples: Frame) | Malformed

  type Decoder = (GsmState, seq<Byte>) -> Decoded

  /**
   * What the player keeps of the decoder between calls: its record and
   * `out_samples`, the samples of the frame it decoded last.
   */
  datatype Decoding = Decoding(gsm: GsmState, samples: Frame)

  /** Starting a track resets the record with `gsm_init` and leaves `out_samples` as it was. */
  function Restarted(d: Decoding): Decoding {
    d.(gsm := Init(d.gsm))
  }

  /**
   * `gsm_init`: clear the whole record in place, then set `nrp` to 40.
   */
  function Init(g: GsmState): (r: GsmState)
    ensures r.nrp == 40
    ensures |r.words| == |g.words|
    ensures forall i :: 0 <= i < |r.words| ==> r.words[i] == 0
  {
    GsmState(40, seq(|g.words|, _ => 0))
  }
}

=== FILE: hud.dfy ===
/**
 * The status display helpers of hud.c: font conversion, the clock digits,
 * the status line, nametable text rows, framebuffer rectangles, and the
 * picture name looked up when a track starts. Video memory regions are
 * sequences of cells here.
 */
module Hud {
  import opened Machine
  import opened Joypad

  // ---------------------------------------------------------------------
  // Font conversion (`upcvt_4bit`)
  // ---------------------------------------------------------------------

  /** `b` after `n` steps of `src_bits >>= 1`. */
  function Shifted(b: nat, n: nat): nat {
    if n == 0 then b else Shifted(b, n - 1) / 2
  }

  /** Bit `j` of `b`, counted from the least significant. */
  function Bit(b: nat, j: nat): nat {
    Shifted(b, j) % 2
  }

  /** Nibble `i` of `w`, counted from the least significant: the colour of pixel `i` of a 4-bit tile row. */
  function Nibble(w: nat, i: nat): nat {
    if i == 0 then w % 16 else Nibble(w / 16, i - 1)
  }

  function Pow16(n: nat): nat {
    if n == 0 then 1 else 16 * Pow16(n - 1)
  }

  /** The word `upcvt_4bit` has built from `b` after `n` rounds of its inner loop. */
  function Spread(b: nat, n: nat): nat {
    if n == 0 then 0 else Spread(b, n - 1) * 16 + Bit(b, n - 1)
  }

  /** Each round pushes the bits so far up a nibble, so the bit taken first ends up highest. */
  lemma {:induction false} SpreadNibble(b: nat, n: nat, i: nat)
    requires i < n
    ensures Nibble(Spread(b, n), i) == Bit(b, n - 1 - i)
  {
    var high, low := Spread(b, n - 1), Bit(b, n - 1);
    DivModUnique(Spread(b, n), 16, high, low);
    if i > 0 {
      SpreadNibble(b, n - 1, i - 1);
    }
  }

  lemma {:induction false} SpreadBound(b: nat, n: nat)
    ensures Spread(b, n) < Pow16(n)
  {
    if n > 0 {
      SpreadBound(b, n - 1);
    }
  }

  /**
   * One byte of a 1-bit font row as one 32-bit row of a 4-bit tile: pixel
   * `i` (nibble `i`) takes bit `7 - i`, so the leftmost pixel, which the
   * font keeps in the top bit, lands in the nibble the display shows
   * first. Every pixel gets colour 0 or 1.
   */
  method ExpandByte(byte: Byte) returns (w: nat)
    ensures w < 0x1_0000_0000
    ensures forall i :: 0 <= i < 8 ==> Nibble(w, i) == Bit(byte as nat, 7 - i)
    ensures forall i :: 0 <= i < 8 ==> Nibble(w, i) <= 1
  {
    var bits := byte as nat;
    w := 0;
    var x := 0;
    while x < 8
      invariant 0 <= x <= 8
      invariant bits == Shifted(byte as nat, x)
      invariant w == Spread(byte as nat, x)
    {
      w := w * 16 + bits % 2;
      bits := bits / 2;
      x := x + 1;
    }
    SpreadByte(byte as nat);
  }

  /** After eight rounds the word fits 32 bits and holds the byte's bits top first. */
  lemma SpreadByte(b: nat)
    ensures Spread(b, 8) < 0x1_0000_0000
    ensures forall i :: 0 <= i < 8 ==> Nibble(Spread(b, 8), i) == Bit(b, 7 - i)
  {
    SpreadBound(b, 8);
    assert Pow16(8) == 0x1_0000_0000;
    forall i | 0 <= i < 8
      ensures Nibble(Spread(b, 8), i) == Bit(b, 7 - i)
    {
      SpreadNibble(b, 8, i);
    }
  }

  /** `upcvt_4bit`: one 32-bit word per input byte, each the byte's pixels as 4-bit colours. */
  method Upcvt4bit(src: seq<Byte>) returns (out: seq<nat>)
    ensures |out| == |src|
    ensures forall k :: 0 <= k < |out| ==> out[k] < 0x1_0000_0000
    ensures forall k, i :: 0 <= k < |out| && 0 <= i < 8 ==> Nibble(out[k], i) == Bit(src[k] as nat, 7 - i)
  {
    out := [];
    var k := 0;
    while k < |src|
      invariant 0 <= k <= |src| && |out| == k
      invariant forall m :: 0 <= m < k ==> out[m] < 0x1_0000_0000
      invariant forall m, i :: 0 <= m < k && 0 <= i < 8 ==> Nibble(out[m], i) == Bit(src[m] as nat, 7 - i)
    {
      var w := ExpandByte(src[k]);
      out := out + [w];
      k := k + 1;
    }
  }

  // ---------------------------------------------------------------------
  // Clock digits (`decimal_time`, `BCD_LOOP`)
  // ---------------------------------------------------------------------

  /** The place values of the clock, minutes tens to seconds units (`hud_bcd`). */
  const BcdPlaces: seq<nat> := [600, 60, 10, 1]

  /** The largest digit each clock place shows (`clockmax`). */
  const ClockMax: seq<nat> := [9, 9, 5, 9]

  /** The largest time the clock shows: 99:59. */
  const ClockLimit: nat := 5999

  /** The character code of the digit '0'. */
  const DigitZero: nat := 48

  /** Whole rows of width `w` end before the next row starts. */
  lemma {:induction false} MulStep(w: nat, a: int, b: int)
    requires a < b
    ensures a * w + w <= b * w
    decreases b - a
  {
    assert b * w == (b - 1) * w + w;
    if a < b - 1 {
      MulStep(w, a, b - 1);
    }
  }

  /** In rows of width `w`, a cell has exactly one row and one column. */
  lemma CellUnique(w: nat, x: int, y: int, x': int, y': int)
    requires 0 <= x < w && 0 <= x' < w
    requires y * w + x == y' * w + x'
    ensures x == x' && y == y'
  {
    if y < y' {
      MulStep(w, y, y');
    } else if y' < y {
      MulStep(w, y', y);
    }
  }

  lemma DivModUnique(x: int, d: nat, q: nat, r: int)
    requires 0 <= r < d && x == q * d + r
    ensures x / d == q && x % d == r
  {
    CellUnique(d, r, q, x % d, x / d);
  }

  /**
   * The four `BCD_LOOP` steps of one clock place: `fac << b` is taken off
   * `src` for b = 3, 2, 1, 0 whenever it fits, and `1 << b` counted in the
   * digit. What is taken off is always digit times `fac`, and the digit is
   * at most 15; when the quotient fits in those four bits, the digit and
   * what is left are exactly the quotient and the remainder.
   */
  method BcdDigit(src: nat, fac: nat) returns (digit: nat, rest: nat)
    ensures digit * fac + rest == src
    ensures digit <= 15
    ensures src < 16 * fac ==> rest < fac && digit == src / fac && rest == src % fac
  {
    digit, rest := 0, src;
    if rest >= fac * 8 { rest, digit := rest - fac * 8, digit + 8; }
    if rest >= fac * 4 { rest, digit := rest - fac * 4, digit + 4; }
    if rest >= fac * 2 { rest, digit := rest - fac * 2, digit + 2; }
    if rest >= fac { rest, digit := rest - fac, digit + 1; }
    if src < 16 * fac {
      DivModUnique(src, fac, digit, rest);
    }
  }

  /**
   * `decimal_time`: the four characters of the clock for `src` seconds,
   * each a digit character of at most 15. For a time the clock can show,
   * the digits are at most 9, 9, 5 and 9, their place values 600, 60, 10
   * and 1 add back up to `src`, and they read as MM:SS.
   */
  method DecimalTime(src: nat) returns (r: seq<nat>)
    ensures |r| == 4
    ensures DigitZero <= r[0] <= DigitZero + 15 && DigitZero <= r[1] <= DigitZero + 15
    ensures DigitZero <= r[2] <= DigitZero + 15 && DigitZero <= r[3] <= DigitZero + 15
    ensures src <= ClockLimit ==>
      && r[0] - DigitZero <= ClockMax[0] && r[1] - DigitZero <= ClockMax[1]
      && r[2] - DigitZero <= ClockMax[2] && r[3] - DigitZero <= ClockMax[3]
      && 600 * (r[0] - DigitZero) + 60 * (r[1] - DigitZero) + 10 * (r[2] - DigitZero) + (r[3] - DigitZero) == src
      && 10 * (r[0] - DigitZero) + (r[1] - DigitZero) == src / 60
      && 10 * (r[2] - DigitZero) + (r[3] - DigitZero) == src % 60
  {
    var d0, s0 := BcdDigit(src, BcdPlaces[0]);
    var d1, s1 := BcdDigit(s0, BcdPlaces[1]);
    var d2, s2 := BcdDigit(s1, BcdPlaces[2]);
    var d3, _ := BcdDigit(s2, BcdPlaces[3]);
    r := [DigitZero + d0, DigitZero + d1, DigitZero + d2, DigitZero + d3];
    if src <= ClockLimit {
      ClockReads(r, src);
    }
  }

  /** Clock digits with these place values and bounds read as MM:SS: minutes first, then seconds. */
  lemma ClockReads(d: seq<nat>, t: nat)
    requires |d| == 4
    requires DigitZero <= d[0] && DigitZero <= d[1] && DigitZero <= d[2] && DigitZero <= d[3]
    requires d[2] - DigitZero <= 5 && d[3] - DigitZero <= 9
    requires 600 * (d[0] - DigitZero) + 60 * (d[1] - DigitZero) + 10 * (d[2] - DigitZero) + (d[3] - DigitZero) == t
    ensures 10 * (d[0] - DigitZero) + (d[1] - DigitZero) == t / 60
    ensures 10 * (d[2] - DigitZero) + (d[3] - DigitZero) == t % 60
  {
    DivModUnique(t, 60, 10 * (d[0] - DigitZero) + (d[1] - DigitZero), 10 * (d[2] - DigitZero) + (d[3] - DigitZero));
  }

  // ---------------------------------------------------------------------
  // Text rows (`hud_wline`, `hud_cls`)
  // ---------------------------------------------------------------------

  /** `strlen`: the characters before the first NUL, or all of them when there is none. */
  function TextLength(s: seq<Byte>): (n: nat)
    ensures n <= |s|
    ensures forall k :: 0 <= k < n ==> s[k] != 0
    ensures n < |s| ==> s[n] == 0
  {
    if |s| == 0 || s[0] == 0 then 0 else 1 + TextLength(s[1..])
  }

  /** The cells of screen block 31, 32 rows of 32 tile entries. */
  const MapCells: nat := 1024

  /** The cells `hud_cls` clears: the 20 rows the screen shows. */
  const VisibleCells: nat := 640

  /** The widest text row: 28 characters from column 1. */
  const RowWidth: nat := 28

  /** The tile entry of a blank half-character: top half, bottom half. */
  const BlankTop: nat := 0x40
  const BlankBottom: nat := 0x41

  /** The first cell of the top half of text line `y`: row `2y`, column 1. */
  function LineStart(y: nat): nat {
    64 * y + 1
  }

  /** True when cell `i` is in one of the first `k` columns of text line `y`, top or bottom half. */
  predicate InLine(i: int, y: nat, k: nat) {
    (LineStart(y) <= i < LineStart(y) + k) || (LineStart(y) + 32 <= i < LineStart(y) + 32 + k)
  }

  /** How many characters of `s` a text line shows. */
  function Shown(s: seq<Byte>): nat {
    if TextLength(s) < RowWidth then TextLength(s) else RowWidth
  }

  /** The tile entries of column `k` of a text line showing `s`: the glyph halves, or blanks past the text. */
  function TopTile(s: seq<Byte>, k: nat): nat {
    if k < Shown(s) then 2 * (s[k] as int) else BlankTop
  }

  function BottomTile(s: seq<Byte>, k: nat): nat {
    if k < Shown(s) then 2 * (s[k] as int) + 1 else BlankBottom
  }

  /**
   * `hud_wline`: text line `y` is two tile rows, each character an 8x16
   * glyph whose top half is tile `2c` and bottom half tile `2c + 1`. The
   * text is cut at its NUL or at 28 characters, whichever comes first,
   * the rest of the 28 columns are blanked, and no other cell changes.
   */
  method HudWline(cells: seq<nat>, y: nat, s: seq<Byte>) returns (m: seq<nat>)
    requires |cells| == MapCells
    requires y < 16
    ensures |m| == MapCells
    ensures forall k :: 0 <= k < RowWidth ==>
      m[LineStart(y) + k] == TopTile(s, k) && m[LineStart(y) + 32 + k] == BottomTile(s, k)
    ensures forall i :: 0 <= i < MapCells && !InLine(i, y, RowWidth) ==> m[i] == cells[i]
  {
    m := cells;
    var dst := LineStart(y);
    var k := 0;
    while k < RowWidth && k < |s| && s[k] != 0
      invariant 0 <= k <= Shown(s) && dst == LineStart(y) + k
      invariant |m| == MapCells
      invariant forall j :: 0 <= j < k ==> m[LineStart(y) + j] == TopTile(s, j) && m[LineStart(y) + 32 + j] == BottomTile(s, j)
      invariant forall i :: 0 <= i < MapCells && !InLine(i, y, k) ==> m[i] == cells[i]
    {
      m := m[dst := 2 * (s[k] as int)][dst + 32 := 2 * (s[k] as int) + 1];
      dst := dst + 1;
      k := k + 1;
    }
    while k < RowWidth
      invariant Shown(s) <= k <= RowWidth && dst == LineStart(y) + k
      invariant |m| == MapCells
      invariant forall j :: 0 <= j < k ==> m[LineStart(y) + j] == TopTile(s, j) && m[LineStart(y) + 32 + j] == BottomTile(s, j)
      invariant forall i :: 0 <= i < MapCells && !InLine(i, y, k) ==> m[i] == cells[i]
    {
      m := m[dst := BlankTop][dst + 32 := BlankBottom];
      dst := dst + 1;
      k := k + 1;
    }
  }

  /** `hud_cls`: the 20 visible rows become blank top halves; the rows below are left alone. */
  method HudCls(cells: seq<nat>) returns (m: seq<nat>)
    requires |cells| == MapCells
    ensures |m| == MapCells
    ensures forall i :: 0 <= i < VisibleCells ==> m[i] == BlankTop
    ensures forall i :: VisibleCells <= i < MapCells ==> m[i] == cells[i]
  {
    m := cells;
    var i := 0;
    while i < VisibleCells
      invariant 0 <= i <= VisibleCells && |m| == MapCells
      invariant forall j :: 0 <= j < i ==> m[j] == BlankTop
      invariant forall j :: i <= j < MapCells ==> m[j] == cells[j]
    {
      m := m[i := BlankTop];
      i := i + 1;
    }
  }

  // ---------------------------------------------------------------------
  // Status line (`hud_frame`)
  // ---------------------------------------------------------------------

  const Space: nat := 32
  const Colon: nat := 58

  /** The font's lock and pause glyphs. */
  const LockGlyph: nat := 12
  const PauseGlyph: nat := 16

  /** The text row the status line is written to. */
  const StatusRow: nat := 9

  /** The time the clock shows: the elapsed seconds clamped to 99:59, never wrapped. */
  function Clamped(seconds: U32): (t: nat)
    ensures t <= ClockLimit && (t == seconds || (t == ClockLimit && seconds > ClockLimit))
  {
    if seconds > ClockLimit then ClockLimit else seconds
  }

  /**
   * The layout of the status line. Column 0 shows the lock glyph exactly
   * when SELECT has locked the keys, column 1 the pause glyph exactly when
   * START has paused, columns 3 and 4 the track number digits, and columns
   * 7, 8, 10 and 11 the clock digits of the clamped time around a colon:
   * each at most 9, 9, 5 and 9, with place values 600, 60, 10 and 1. The
   * line ends at column 12.
   */
  predicate IsStatusLine(line: seq<Byte>, locked: set<Button>, seconds: U32, trackno: seq<Byte>)
    requires |trackno| == 2
  {
    && |line| == 13
    && (line[0] == LockGlyph <==> Select in locked) && (Select !in locked ==> line[0] == Space)
    && (line[1] == PauseGlyph <==> Start in locked) && (Start !in locked ==> line[1] == Space)
    && line[2] == Space && line[5] == Space && line[6] == Space
    && line[3] == (trackno[0] + DigitZero) % 256 && line[4] == (trackno[1] + DigitZero) % 256
    && line[9] == Colon && line[12] == 0
    && DigitZero <= line[7] <= DigitZero + 9 && DigitZero <= line[8] <= DigitZero + 9
    && DigitZero <= line[10] <= DigitZero + 5 && DigitZero <= line[11] <= DigitZero + 9
    && 600 * (line[7] - DigitZero) + 60 * (line[8] - DigitZero) + 10 * (line[10] - DigitZero) + (line[11] - DigitZero) == Clamped(seconds)
  }

  /**
   * The status line `hud_frame` builds from the elapsed seconds the
   * fixed-point scaling of the byte offset gives. Its clock reads as the
   * minutes and seconds of the clamped time, and with track number digits
   * its first NUL is at column 12.
   */
  method FrameLine(locked: set<Button>, seconds: U32, trackno: seq<Byte>) returns (line: seq<Byte>)
    requires |trackno| == 2
    ensures IsStatusLine(line, locked, seconds, trackno)
    ensures 10 * (line[7] - DigitZero) + (line[8] - DigitZero) == Clamped(seconds) / 60
    ensures 10 * (line[10] - DigitZero) + (line[11] - DigitZero) == Clamped(seconds) % 60
    ensures trackno[0] < 10 && trackno[1] < 10 ==> TextLength(line) == 12
  {
    var bcd := DecimalTime(Clamped(seconds));
    var lock: Byte := if Select in locked then LockGlyph else Space;
    var pause: Byte := if Start in locked then PauseGlyph else Space;
    var d0: Byte, d1: Byte, d2: Byte, d3: Byte := bcd[0], bcd[1], bcd[2], bcd[3];
    line := [lock, pause, Space, (trackno[0] + DigitZero) % 256, (trackno[1] + DigitZero) % 256,
             Space, Space, d0, d1, Colon, d2, d3, 0];
    if trackno[0] < 10 && trackno[1] < 10 {
      TextLengthAt(line, 12);
    }
  }

  /** A string whose first NUL is at `n` has length `n`. */
  lemma {:induction false} TextLengthAt(s: seq<Byte>, n: nat)
    requires n < |s| && s[n] == 0
    requires forall k :: 0 <= k < n ==> s[k] != 0
    ensures TextLength(s) == n
  {
    if n > 0 {
      TextLengthAt(s[1..], n - 1);
    }
  }

  /** The glyph halves of a text: tile `2c` for the top, `2c + 1` for the bottom. */
  function Glyphs(text: seq<Byte>, half: nat): (r: seq<nat>)
    ensures |r| == |text|
  {
    seq(|text|, k requires 0 <= k < |text| => 2 * (text[k] as int) + half)
  }

  /** A written text line, read back as the glyphs of its text followed by blanks. */
  lemma RowSlices(m: seq<nat>, at: nat, s: seq<Byte>, n: nat)
    requires Shown(s) == n
    requires at + 32 + RowWidth <= |m|
    requires forall k :: 0 <= k < RowWidth ==> m[at + k] == TopTile(s, k) && m[at + 32 + k] == BottomTile(s, k)
    ensures n <= |s| && n <= RowWidth
    ensures m[at..at + n] == Glyphs(s[..n], 0) && m[at + n..at + RowWidth] == seq(RowWidth - n, _ => BlankTop)
    ensures m[at + 32..at + 32 + n] == Glyphs(s[..n], 1) && m[at + 32 + n..at + 32 + RowWidth] == seq(RowWidth - n, _ => BlankBottom)
  {
    forall k | 0 <= k < n
      ensures m[at..at + n][k] == Glyphs(s[..n], 0)[k] && m[at + 32..at + 32 + n][k] == Glyphs(s[..n], 1)[k]
    {
      assert m[at + k] == TopTile(s, k) && m[at + 32 + k] == BottomTile(s, k);
    }
    var top, bottom := m[at + n..at + RowWidth], m[at + 32 + n..at + 32 + RowWidth];
    forall k | 0 <= k < RowWidth - n
      ensures top[k] == BlankTop && bottom[k] == BlankBottom
    {
      assert m[at + (n + k)] == TopTile(s, n + k) && m[at + 32 + (n + k)] == BottomTile(s, n + k);
    }
  }

  /**
   * `hud_frame`: the status line, returned as built, on text row 9. With
   * track number digits, its twelve characters fill columns 1 to 12 and
   * the rest of the row is blank; nothing outside row 9 changes.
   */
  method HudFrame(cells: seq<nat>, locked: set<Button>, seconds: U32, trackno: seq<Byte>)
    returns (line: seq<Byte>, m: seq<nat>)
    requires |cells| == MapCells
    requires |trackno| == 2
    ensures IsStatusLine(line, locked, seconds, trackno)
    ensures |m| == MapCells
    ensures trackno[0] < 10 && trackno[1] < 10 ==>
      var at := LineStart(StatusRow);
      && m[at..at + 12] == Glyphs(line[..12], 0) && m[at + 12..at + RowWidth] == seq(RowWidth - 12, _ => BlankTop)
      && m[at + 32..at + 44] == Glyphs(line[..12], 1) && m[at + 44..at + 32 + RowWidth] == seq(RowWidth - 12, _ => BlankBottom)
    ensures forall i :: 0 <= i < MapCells && !InLine(i, StatusRow, RowWidth) ==> m[i] == cells[i]
  {
    line := FrameLine(locked, seconds, trackno);
    m := HudWline(cells, StatusRow, line);
    if trackno[0] < 10 && trackno[1] < 10 {
      RowSlices(m, LineStart(StatusRow), line, 12);
    }
  }

  // ---------------------------------------------------------------------
  // Framebuffer rectangles (`bmp16_rect`)
  // ---------------------------------------------------------------------

  /** The cell at column `x` of row `y` in a framebuffer `width` cells wide. */
  function CellAt(width: nat, x: int, y: int): int {
    y * width + x
  }

  predicate InRect(x: int, y: int, left: int, top: int, right: int, bottom: int) {
    left <= x < right && top <= y < bottom
  }

  /**
   * Whether `bmp16_rect` writes cell `k`: it is `ix` cells after the start
   * of run `iy`, for some `iy < rows` and `ix < width`, where run `iy`
   * starts `iy` rows of `w` cells after `base`. A run longer than a row
   * goes on into the next one.
   */
  ghost predicate Covered(k: int, base: int, w: nat, width: nat, rows: nat) {
    exists y, x :: 0 <= y < rows && 0 <= x < width && k == base + CellAt(w, x, y)
  }

  /** The last cell of the last run, the highest cell written. */
  function LastCell(base: int, w: nat, width: nat, height: nat): int {
    base + CellAt(w, width - 1, height - 1)
  }

  /** One more run covers what the earlier runs cover, and its own `width` cells. */
  lemma CoveredStep(k: int, base: int, w: nat, width: nat, rows: nat)
    ensures Covered(k, base, w, width, rows + 1) <==>
      Covered(k, base, w, width, rows) || base + CellAt(w, 0, rows) <= k < base + CellAt(w, width, rows)
  {
    var start := base + CellAt(w, 0, rows);
    if start <= k < start + width {
      assert k == base + CellAt(w, k - start, rows);
    }
    if Covered(k, base, w, width, rows + 1) {
      var y, x :| 0 <= y < rows + 1 && 0 <= x < width && k == base + CellAt(w, x, y);
      if y < rows {
        assert Covered(k, base, w, width, rows);
      }
    }
  }

  /** Every written cell lies between `base` and the last cell of the last run. */
  lemma RunCellBounds(base: int, w: nat, width: nat, height: nat, iy: nat, ix: nat)
    requires iy < height && ix < width
    ensures base <= base + CellAt(w, ix, iy) <= LastCell(base, w, width, height)
  {
    if iy < height - 1 {
      MulStep(w, iy, height - 1);
    }
  }

  /**
   * `bmp16_rect`: fill a rectangle of a 16-bit framebuffer, whose rows are
   * `pitch` bytes apart, with the low half of `clr`. The width
   * `right - left` and height `bottom - top` are unsigned 32-bit, so
   * reversed edges wrap to about four billion; the first cell is at column
   * `left` of row `top`, and every run of `width` cells starts one row of
   * `pitch / 2` cells after the one before. The result is `None` exactly
   * when some cell written falls outside the framebuffer (where the C code
   * writes other memory); otherwise precisely the cells covered take the
   * colour and every other cell keeps its value.
   */
  method Bmp16Rect(left: int, top: int, right: int, bottom: int, clr: U32, fb: seq<U16>, pitch: U32)
    returns (r: Option<seq<U16>>)
    requires pitch % 2 == 0
    ensures var w, width, height := pitch / 2, (right - left) % 0x1_0000_0000, (bottom - top) % 0x1_0000_0000;
      var base := top * w + left;
      && (r.Some? <==> width == 0 || height == 0 || (0 <= base && LastCell(base, w, width, height) < |fb|))
      && (r.Some? ==>
            && |r.value| == |fb|
            && forall k :: 0 <= k < |fb| ==>
                 r.value[k] == (if Covered(k, base, w, width, height) then clr % 0x1_0000 else fb[k]))
  {
    var w, width, height := pitch / 2, (right - left) % 0x1_0000_0000, (bottom - top) % 0x1_0000_0000;
    var base := top * w + left;
    if !(width == 0 || height == 0 || (0 <= base && LastCell(base, w, width, height) < |fb|)) {
      return None;
    }
    var c: U16 := clr % 0x1_0000;
    var out := fb;
    var iy := 0;
    while iy < height
      invariant 0 <= iy <= height && |out| == |fb|
      invariant forall k :: 0 <= k < |fb| ==> out[k] == (if Covered(k, base, w, width, iy) then c else fb[k])
    {
      var start := base + CellAt(w, 0, iy);
      var ix := 0;
      while ix < width
        invariant 0 <= ix <= width && |out| == |fb|
        invariant forall k :: 0 <= k < |fb| ==>
          out[k] == (if Covered(k, base, w, width, iy) || start <= k < start + ix then c else fb[k])
      {
        RunCellBounds(base, w, width, height, iy, ix);
        out := out[start + ix := c];
        ix := ix + 1;
      }
      forall k | 0 <= k < |fb|
        ensures Covered(k, base, w, width, iy + 1) <==> Covered(k, base, w, width, iy) || start <= k < start + width
      {
        CoveredStep(k, base, w, width, iy);
      }
      iy := iy + 1;
    }
    if width == 0 || height == 0 {
      forall k | 0 <= k < |fb| ensures !Covered(k, base, w, width, height) { }
    }
    return Some(out);
  }

  /** Counting from the cell at (`left`, `top`) adds the offsets to the column and the row. */
  lemma CellShift(w: nat, left: int, top: int, dx: int, dy: int)
    ensures CellAt(w, left, top) + CellAt(w, dx, dy) == CellAt(w, left + dx, top + dy)
  {
    assert (top + dy) * w == top * w + dy * w;
  }

  /**
   * When the rectangle fits in one row and its edges are in order, the
   * cells covered are exactly those of the rectangle `[left, right) x
   * [top, bottom)`.
   */
  lemma RectCells(w: nat, left: int, top: int, right: int, bottom: int, x: int, y: int)
    requires 0 <= left <= right <= w && top <= bottom
    requires 0 <= x < w
    ensures Covered(CellAt(w, x, y), top * w + left, w, right - left, bottom - top) <==>
      InRect(x, y, left, top, right, bottom)
  {
    var base := top * w + left;
    if InRect(x, y, left, top, right, bottom) {
      CellShift(w, left, top, x - left, y - top);
    }
    if Covered(CellAt(w, x, y), base, w, right - left, bottom - top) {
      var y', x' :| 0 <= y' < bottom - top && 0 <= x' < right - left && CellAt(w, x, y) == base + CellAt(w, x', y');
      CellShift(w, left, top, x', y');
      CellUnique(w, x, y, left + x', top + y');
    }
  }

  // ---------------------------------------------------------------------
  // Track pictures (`hud_new_song`)
  // ---------------------------------------------------------------------

  /**
   * The archive name of a track's picture, as `hud_new_song` builds it in
   * a buffer of `strlen(name) + 6` bytes: "img" followed by the track name.
   * The name and its terminator fit that buffer with two bytes to spare.
   */
  function ImageName(name: string): (r: string)
    ensures |r| == |name| + 3
    ensures r[..3] == "img" && r[3..] == name
    ensures |r| + 1 <= |name| + 6
  {
    "img" + name
  }
}

=== FILE: joypad.dfy ===
/**
 * The key input register and the per-tick command word built from it
 * (gsmplay.c, the first lines of the loop in `streaming_run`).
 */
module Joypad {

  /** The ten buttons of the key input register, in bit order. */
  datatype Button = A | B | Select | Start | Right | Left | Up | Down | R | L

  const Buttons: set<Button> := {A, B, Select, Start, Right, Left, Up, Down, R, L}

  const AllButtons: bv16 := 0x03ff

  /** `JOY_R | JOY_L`: the buttons that repeat. */
  const Shoulders: bv16 := 0x0300

  /** The register value when no button is held (the register is active-low). */
  const NothingHeld: bv16 := 0xffff

  /** Whether the register bit of button `b` is set in the key word `w`. */
  predicate Held(w: bv16, b: Button) {
    match b
    case A => w & 0x0001 != 0
    case B => w & 0x0002 != 0
    case Select => w & 0x0004 != 0
    case Start => w & 0x0008 != 0
    case Right => w & 0x0010 != 0
    case Left => w & 0x0020 != 0
    case Up => w & 0x0040 != 0
    case Down => w & 0x0080 != 0
    case R => w & 0x0100 != 0
    case L => w & 0x0200 != 0
  }

  /** The buttons whose bits are set in a key word. */
  function ButtonsOf(w: bv16): (s: set<Button>)
    ensures forall b :: b in s <==> Held(w, b)
  {
    set b | b in Buttons && Held(w, b)
  }

  /** Shoulder buttons repeat every tick they are held; all others act on the press. */
  predicate Repeats(b: Button) {
    b == R || b == L
  }

  /**
   * `(JOY & 0x3ff) ^ 0x3ff`: the word of buttons held this tick. A button
   * is held exactly when its register bit reads 0; no bit above the ten
   * buttons is ever set.
   */
  function Pressed(joy: bv16): (j: bv16)
    ensures forall b :: Held(j, b) <==> !Held(joy, b)
    ensures j & !AllButtons == 0
  {
    PressedBits(joy);
    (joy & AllButtons) ^ AllButtons
  }

  /**
   * `j & (~last_joy | JOY_R | JOY_L)`: a button issues a command on the
   * tick it goes down, except R and L, which issue one on every tick they
   * are held. Nothing that is not held issues a command.
   */
  function Commands(j: bv16, lastJoy: bv16): (cmd: bv16)
    ensures forall b :: Held(cmd, b) <==> Held(j, b) && (!Held(lastJoy, b) || Repeats(b))
    ensures cmd & !j == 0
  {
    CommandButtons(j, lastJoy);
    j & (!lastJoy | Shoulders)
  }

  lemma PressedBits(joy: bv16)
    ensures forall b :: Held((joy & AllButtons) ^ AllButtons, b) <==> !Held(joy, b)
  {
    InvertedBits(joy);
    forall b ensures Held((joy & AllButtons) ^ AllButtons, b) <==> !Held(joy, b) {
      match b
      case A => case B => case Select => case Start => case Right =>
      case Left => case Up => case Down => case R => case L =>
    }
  }

  lemma CommandButtons(j: bv16, lastJoy: bv16)
    ensures forall b :: Held(j & (!lastJoy | Shoulders), b) <==> Held(j, b) && (!Held(lastJoy, b) || Repeats(b))
  {
    CommandBits(j, lastJoy);
    forall b
      ensures Held(j & (!lastJoy | Shoulders), b) <==> Held(j, b) && (!Held(lastJoy, b) || Repeats(b))
    {
      match b
      case A => case B => case Select => case Start => case Right =>
      case Left => case Up => case Down => case R => case L =>
    }
  }

  /** Bit by bit, `(joy & 0x3ff) ^ 0x3ff` is the complement of `joy`. */
  lemma InvertedBits(joy: bv16)
    ensures var j := (joy & AllButtons) ^ AllButtons;
      && (j & 0x0001 != 0 <==> joy & 0x0001 == 0)
      && (j & 0x0002 != 0 <==> joy & 0x0002 == 0)
      && (j & 0x0004 != 0 <==> joy & 0x0004 == 0)
      && (j & 0x0008 != 0 <==> joy & 0x0008 == 0)
      && (j & 0x0010 != 0 <==> joy & 0x0010 == 0)
      && (j & 0x0020 != 0 <==> joy & 0x0020 == 0)
      && (j & 0x0040 != 0 <==> joy & 0x0040 == 0)
      && (j & 0x0080 != 0 <==> joy & 0x0080 == 0)
      && (j & 0x0100 != 0 <==> joy & 0x0100 == 0)
      && (j & 0x0200 != 0 <==> joy & 0x0200 == 0)
  {
  }

  /**
   * Bit by bit, the command word keeps the low eight held bits only where
   * the previous word had them clear, and keeps R and L whenever held.
   */
  lemma CommandBits(j: bv16, lastJoy: bv16)
    ensures var cmd := j & (!lastJoy | Shoulders);
      && (cmd & 0x0001 != 0 <==> j & 0x0001 != 0 && lastJoy & 0x0001 == 0)
      && (cmd & 0x0002 != 0 <==> j & 0x0002 != 0 && lastJoy & 0x0002 == 0)
      && (cmd & 0x0004 != 0 <==> j & 0x0004 != 0 && lastJoy & 0x0004 == 0)
      && (cmd & 0x0008 != 0 <==> j & 0x0008 != 0 && lastJoy & 0x0008 == 0)
      && (cmd & 0x0010 != 0 <==> j & 0x0010 != 0 && lastJoy & 0x0010 == 0)
      && (cmd & 0x0020 != 0 <==> j & 0x0020 != 0 && lastJoy & 0x0020 == 0)
      && (cmd & 0x0040 != 0 <==> j & 0x0040 != 0 && lastJoy & 0x0040 == 0)
      && (cmd & 0x0080 != 0 <==> j & 0x0080 != 0 && lastJoy & 0x0080 == 0)
      && (cmd & 0x0100 != 0 <==> j & 0x0100 != 0)
      && (cmd & 0x0200 != 0 <==> j & 0x0200 != 0)
  {
  }
}

=== FILE: machine.dfy ===
/**
 * Machine-level value types shared by the player model: the C integer
 * widths the source relies on, its arithmetic right shift, and the small
 * outcome types the model uses where the C code has no error channel.
 */
module Machine {

  /** An `unsigned int` on the ARM7 target. */
  type U32 = x: int | 0 <= x < 0x1_0000_0000

  const U32Max: U32 := 0xFFFF_FFFF

  /** An `unsigned short`: one nametable or framebuffer cell. */
  type U16 = x: int | 0 <= x < 0x1_0000

  /** A `signed short`: one decoded GSM sample. */
  type Int16 = x: int | -0x8000 <= x < 0x8000

  /** An `unsigned char`: one byte of a track, a font row or a text. */
  type Byte = x: int | 0 <= x < 256

  /** True when `x` fits in a `signed char`, the sample type of the sound FIFO. */
  predicate IsInt8(x: int) {
    -128 <= x < 128
  }

  /**
   * `s >> 8` on a signed sample: the compiler emits an arithmetic shift,
   * which rounds toward negative infinity, and Dafny's `/` by a positive
   * divisor rounds the same way. The result is the 8-bit output sample.
   */
  function Quantize(s: Int16): (r: int)
    ensures IsInt8(r)
    ensures 256 * r <= s < 256 * r + 256
  {
    s / 256
  }

  /**
   * `(a + b) >> 9`: the average of two samples, quantized to 8 bits in the
   * same shift.
   */
  function Midpoint(a: Int16, b: Int16): (r: int)
    ensures IsInt8(r)
    ensures 512 * r <= a + b < 512 * r + 512
  {
    (a + b) / 512
  }

  datatype Option<+T> = None | Some(value: T)

  /**
   * The result of a step that may have to read compressed data outside
   * the current track. The C code performs such a read anyway; the model
   * stops there and reports the offending offset instead of inventing the
   * bytes it would have read.
   */
  datatype Outcome<+T> = Ok(value: T) | OutOfTrack(offset: int) {

    predicate IsFailure() {
      OutOfTrack?
    }

    function PropagateFailure<U>(): Outcome<U>
      requires OutOfTrack?
    {
      OutOfTrack(offset)
    }

    function Extract(): T
      requires Ok?
    {
      value
    }
  }
}

=== FILE: navigation.dfy ===
/**
 * The input-driven part of one player tick (gsmplay.c `streaming_run`,
 * from the key read up to the track (re)start): the SELECT input lock, the
 * START pause toggle, coarse seeking with L and R, and track stepping with
 * wraparound.
 *
 * The command word and the lock word are sets of buttons here; the source
 * keeps them as bit words and toggles bits with `^=`. Pointers into the
 * current track are offsets from its first byte. Before the first track is
 * loaded all three pointers are NULL; `loaded` is false then, and the two
 * pointer comparisons behave as 32-bit address compares against NULL do.
 */
module Navigation {
  import opened Machine
  import opened Joypad

  /** Bytes skipped by one L or R seek: 50 frames of 33 bytes. */
  const SeekBytes := 33 * 50

  /** How far before the end L restarts a track: 60 frames of 33 bytes. */
  const RestartBack := 33 * 60

  /** `x ^= b` on a bit word, as a set. */
  function Toggle(s: set<Button>, b: Button): (r: set<Button>)
    ensures b in r <==> b !in s
    ensures forall c :: c != b ==> (c in r <==> c in s)
  {
    if b in s then s - {b} else s + {b}
  }

  /** The commands and the two pieces of input state after the lock and pause logic. */
  datatype Controls = Controls(cmd: set<Button>, lastJoy: bv16, locked: set<Button>)

  /**
   * Read the keys, derive this tick's commands, and apply the lock and
   * the pause toggle. A SELECT press toggles the lock; while locked, every
   * command is dropped (SELECT itself still unlocks, because the toggle
   * comes first). A START command toggles pause. No other lock bit changes.
   */
  function ReadControls(joy: bv16, lastJoy: bv16, locked: set<Button>): (c: Controls)
    ensures c.lastJoy == Pressed(joy)
    ensures var edges := ButtonsOf(Commands(Pressed(joy), lastJoy));
      ((Select in c.locked) != (Select in locked) <==> Select in edges)
    ensures Select in c.locked ==> c.cmd == {}
    ensures Select !in c.locked ==> c.cmd == ButtonsOf(Commands(Pressed(joy), lastJoy))
    ensures (Start in c.locked) != (Start in locked) <==> Start in c.cmd
    ensures forall b :: b != Select && b != Start ==> (b in c.locked <==> b in locked)
  {
    var j := Pressed(joy);
    var cmd0 := ButtonsOf(Commands(j, lastJoy));
    var locked1 := if Select in cmd0 then Toggle(locked, Select) else locked;
    var cmd1 := if Select in locked1 then {} else cmd0;
    var locked2 := if Start in cmd1 then Toggle(locked1, Start) else locked1;
    Controls(cmd1, j, locked2)
  }

  /**
   * While the lock is on, keys that do not press SELECT issue no command
   * and leave the lock bits alone; only the remembered key word changes.
   */
  lemma LockedControls(joy: bv16, lastJoy: bv16, locked: set<Button>)
    requires Select in locked
    requires Select !in ButtonsOf(Commands(Pressed(joy), lastJoy))
    ensures ReadControls(joy, lastJoy, locked) == Controls({}, Pressed(joy), locked)
  {
  }

  /** With no key held there is no command at all. */
  lemma NothingHeldCommandsNothing(lastJoy: bv16)
    ensures ButtonsOf(Commands(Pressed(NothingHeld), lastJoy)) == {}
  {
    assert Pressed(NothingHeld) == 0;
  }

  /**
   * When every key counted as held before, nothing but the repeating L and
   * R can issue a command, so the lock and the pause stay off.
   */
  lemma AllHeldBefore(joy: bv16)
    ensures var c := ReadControls(joy, AllButtons, {});
      c.cmd <= {R, L} && c.locked == {}
  {
    var edges := ButtonsOf(Commands(Pressed(joy), AllButtons));
    assert edges <= {R, L} by {
      forall b | b in edges ensures b == R || b == L {
        assert Held(AllButtons, b) by {
          match b
          case A => case B => case Select => case Start => case Right =>
          case Left => case Up => case Down => case R => case L =>
        }
      }
    }
  }

  /** The read offset and commands after seeking. */
  datatype Seeked = Seeked(pos: int, cmd: set<Button>)

  /**
   * L moves the offset back one seek step and, when that lands before the
   * track, asks for the previous track; R moves it forward one step. Once
   * the offset is at or past the end of the track (or no track is loaded
   * yet) the next track is asked for, whether or not a key was used.
   * Seeking adds no other command.
   */
  function Seek(cmd: set<Button>, pos: int, loaded: bool, len: nat): (r: Seeked)
    ensures r.pos - pos == (if R in cmd then SeekBytes else 0) - (if L in cmd then SeekBytes else 0)
    ensures Left in r.cmd <==> Left in cmd || (loaded && L in cmd && pos < SeekBytes)
    ensures Right in r.cmd <==> Right in cmd || !loaded || r.pos >= len
    ensures forall b :: b != Left && b != Right ==> (b in r.cmd <==> b in cmd)
  {
    var (pos1, cmd1) :=
      if L in cmd then
        var p := pos - SeekBytes;
        // With NULL pointers, NULL - 1650 wraps to the top of the address space.
        (p, if loaded && p < 0 then cmd + {Left} else cmd)
      else (pos, cmd);
    var pos2 := if R in cmd1 then pos1 + SeekBytes else pos1;
    var cmd2 := if !loaded || pos2 >= len then cmd1 + {Right} else cmd1;
    Seeked(pos2, cmd2)
  }

  /**
   * `cur_song++`, wrapping to 0 at the track count. The increment is done
   * on an `unsigned int`, so the "no track yet" value `UINT_MAX` steps to
   * track 0.
   */
  function NextTrack(song: U32, n: nat): (r: U32)
    requires 1 <= n <= U32Max
    ensures r < n
    ensures song + 1 < n ==> r == song + 1
    ensures n - 1 <= song ==> r == 0
  {
    var s := (song + 1) % 0x1_0000_0000;
    if s >= n then 0 else s
  }

  /** `cur_song--`, wrapping from 0 to the last track. */
  function PrevTrack(song: U32, n: nat): (r: U32)
    requires 1 <= n <= U32Max
    ensures song == 0 ==> r == n - 1
    ensures song > 0 ==> r == song - 1
    ensures song < n ==> r < n
  {
    if song == 0 then n - 1 else song - 1
  }

  /** Stepping forward then back, or back then forward, returns to the same track. */
  lemma StepsAreInverse(song: U32, n: nat)
    requires 1 <= n <= U32Max
    requires song < n
    ensures PrevTrack(NextTrack(song, n), n) == song
    ensures NextTrack(PrevTrack(song, n), n) == song
  {
  }

  /** The track number after track stepping, and whether a track start was requested. */
  datatype Stepped = Stepped(song: U32, start: bool)

  /**
   * A RIGHT command steps to the next track and a LEFT command to the
   * previous one (both, in that order, when both are present); either one
   * requests a track start.
   */
  function ChangeTrack(cmd: set<Button>, song: U32, n: nat): (r: Stepped)
    requires 1 <= n <= U32Max
    ensures r.start <==> Right in cmd || Left in cmd
    ensures Right in cmd && Left !in cmd ==> r.song == NextTrack(song, n)
    ensures Left in cmd && Right !in cmd ==> r.song == PrevTrack(song, n)
    ensures Right !in cmd && Left !in cmd ==> r.song == song
    ensures song < n && Right in cmd && Left in cmd ==> r.song == song
    ensures song < n || Right in cmd ==> r.song < n
  {
    var s1 := if Right in cmd then NextTrack(song, n) else song;
    var s2 := if Left in cmd then PrevTrack(s1, n) else s1;
    Stepped(s2, Right in cmd || Left in cmd)
  }

  /**
   * The corrected restart offset: at the track's first byte, or, when the
   * start was made with L held, 60 frames before its end, but only when
   * the track is that long; a shorter track starts at its first byte. The
   * source has no such check (see `RestartOffsetAsWritten`); this is the
   * rule that keeps every decode inside the track.
   */
  function RestartOffset(len: nat, back: bool): (pos: int)
    ensures 0 <= pos <= len
    ensures back && len >= RestartBack ==> len - pos == RestartBack
    ensures !back || len < RestartBack ==> pos == 0
    ensures len % 33 == 0 ==> pos % 33 == 0
  {
    if back && len >= RestartBack then len - RestartBack else 0
  }

  /**
   * The restart offset as the source computes it: `src + src_len - 33 * 60`
   * even when the track is shorter than that, which points before the track.
   */
  function RestartOffsetAsWritten(len: nat, back: bool): (pos: int)
    ensures back ==> pos + RestartBack == len
    ensures !back ==> pos == 0
    ensures back && len < RestartBack ==> pos < 0
  {
    if back then len - RestartBack else 0
  }

  /** Which restart offset a track start takes: the source's own, or the corrected one. */
  datatype RestartRule = AsWritten | Corrected

  function Restart(rule: RestartRule, len: nat, back: bool): int {
    match rule
    case AsWritten => RestartOffsetAsWritten(len, back)
    case Corrected => RestartOffset(len, back)
  }

  /**
   * The two rules differ only for a track shorter than 60 frames started
   * with L; otherwise both land inside the track, and on a frame boundary
   * of a whole-frames track.
   */
  lemma RulesAgree(len: nat, back: bool)
    ensures !back || len >= RestartBack <==> Restart(AsWritten, len, back) == Restart(Corrected, len, back)
    ensures !back || len >= RestartBack ==>
      0 <= Restart(AsWritten, len, back) <= len && (len % 33 == 0 ==> Restart(AsWritten, len, back) % 33 == 0)
  {
  }
}

=== FILE: player.dfy ===
/**
 * One iteration of the playback loop of gsmplay.c `streaming_run`, as a
 * pure step from one engine state to the next: key input, lock and pause,
 * seeking, track stepping and (re)start, the buffer fill, and the DMA
 * buffer switch.
 *
 * The decoder and the asset archive are parameters. The wait for vertical
 * blank between the fill and the switch, and the progress bar drawn after
 * it, are not part of this step.
 */
module Player {
  import opened Machine
  import opened Joypad
  import opened Gbfs
  import opened Gsm
  import opened Navigation
  import opened Resampler
  import Dma
  import Hud

  /**
   * The loop's state: the track number (`cur_song`), whether a track has
   * been loaded yet, the bytes of the loaded track, the decoding cursor,
   * the previous key word, the lock and pause bits, which sound buffer is
   * filled next, the two sound buffers, and DMA channel 1.
   */
  datatype Engine = Engine(
    song: U32,
    loaded: bool,
    track: seq<Byte>,
    cursor: Cursor,
    lastJoy: bv16,
    locked: set<Button>,
    curBuffer: nat,
    buffers: seq<seq<int>>,
    dma: Dma.Channel)

  /**
   * The state on entry to the loop: no track (`cur_song` is `UINT_MAX`,
   * all pointers NULL), the sample buffer used up so the first fill
   * decodes, every key counted as already held so the first tick sees no
   * press, and zeroed statics. `gsmWords` is the size of the decoder
   * record, which this model does not fix.
   */
  function Initial(gsmWords: nat): (e: Engine)
    ensures !e.loaded && e.song == U32Max && e.locked == {} && e.curBuffer == 0
    ensures Aligned(e.cursor) && e.cursor.decodePos == FrameSamples && e.cursor.pos == 0
    ensures e.cursor.lastSample == 0 && e.lastJoy == AllButtons
    ensures |e.buffers| == 2 && |e.buffers[0]| == |e.buffers[1]| == BufferBytes
    ensures forall i :: 0 <= i < BufferBytes ==> e.buffers[0][i] == 0 && e.buffers[1][i] == 0
  {
    Engine(U32Max, false, [],
           Cursor(0, FrameSamples, 0, Decoding(GsmState(0, seq(gsmWords, _ => 0)), seq(FrameSamples, _ => 0))),
           AllButtons, {}, 0, [seq(BufferBytes, _ => 0), seq(BufferBytes, _ => 0)], Dma.PowerOn)
  }

  /**
   * What must hold between ticks: the archive has a track; a loaded track
   * is a real one and its bytes are the archive's; before loading,
   * `cur_song` is still `UINT_MAX`; the sample index is on a group of four;
   * there are two full sound buffers; and DMA is never pointed at the
   * buffer that is filled next.
   */
  ghost predicate Valid(fs: Archive, s: Engine) {
    && Playable(fs)
    && (s.loaded ==> s.song < TrackCount(fs) && s.track == fs.objects[s.song].data)
    && (!s.loaded ==> s.song == U32Max)
    && Aligned(s.cursor)
    && s.curBuffer < 2
    && |s.buffers| == 2 && |s.buffers[0]| == BufferBytes && |s.buffers[1]| == BufferBytes
    && s.dma.src != Dma.DoubleBuffer(s.curBuffer)
  }

  /** Every track is whole frames, and the read offset is on a frame boundary, not before the track. */
  ghost predicate OnFrames(fs: Archive, s: Engine) {
    FrameAligned(fs) && 0 <= s.cursor.pos && s.cursor.pos % FrameBytes == 0
  }

  /**
   * Every track start under `rule` lands inside its track: always so for
   * the corrected rule; for the source's rule only when no track is
   * shorter than the 60 frames an L restart backs up.
   */
  ghost predicate RestartsInside(fs: Archive, rule: RestartRule) {
    rule == Corrected || forall i :: 0 <= i < TrackCount(fs) ==> |fs.objects[i].data| >= RestartBack
  }

  /** The state after the input part of a tick, and the picture requested if a track was started. */
  datatype Navigated = Navigated(engine: Engine, started: bool, image: Option<string>)

  /**
   * The input part of a tick, once the keys are read into the commands and
   * lock bits `ctl`. Seeking moves the read offset and may ask for a track
   * step; a track starts exactly when a step is asked for, and the track
   * is the one the stepping chose. A start resets the decoder, loads that
   * track, and sets the read offset by `rule`: to its start, or 60 frames
   * before its end when L is among the commands; it leaves the
   * sample index, the last sample, the samples, the lock bits and the
   * sound buffers alone. Without a track start, only the read offset, the
   * key word and the lock bits change: seeking alone never resets the
   * decoder.
   */
  function Navigate(fs: Archive, s: Engine, ctl: Controls, rule: RestartRule): (n: Navigated)
    requires Valid(fs, s)
    ensures var sk := Seek(ctl.cmd, s.cursor.pos, s.loaded, |s.track|);
      && (n.started <==> Right in sk.cmd || Left in sk.cmd)
      && n.engine.song == ChangeTrack(sk.cmd, s.song, TrackCount(fs)).song
      && (!n.started ==> n.engine.cursor.pos == sk.pos)
    ensures n.engine.lastJoy == ctl.lastJoy && n.engine.locked == ctl.locked
    ensures n.engine.curBuffer == s.curBuffer && n.engine.buffers == s.buffers && n.engine.dma == s.dma
    ensures n.engine.loaded && n.engine.song < TrackCount(fs)
    ensures n.engine.track == fs.objects[n.engine.song].data
    ensures !s.loaded ==> n.started
    ensures n.started ==>
      && n.engine.cursor == s.cursor.(pos := Restart(rule, |n.engine.track|, L in ctl.cmd),
                                      decoding := Restarted(s.cursor.decoding))
      && n.image == Some(Hud.ImageName(fs.objects[n.engine.song].name))
    ensures !n.started ==>
      && n.engine.song == s.song && n.engine.track == s.track
      && n.engine.cursor == s.cursor.(pos := n.engine.cursor.pos)
      && n.image == None
  {
    var count := TrackCount(fs);
    var sk := Seek(ctl.cmd, s.cursor.pos, s.loaded, |s.track|);
    var st := ChangeTrack(sk.cmd, s.song, count);
    var s1 := s.(lastJoy := ctl.lastJoy, locked := ctl.locked, cursor := s.cursor.(pos := sk.pos));
    if !st.start then
      Navigated(s1, false, None)
    else
      var obj := Nth(fs, st.song);
      var c := s1.cursor.(pos := Restart(rule, |obj.data|, L in ctl.cmd), decoding := Restarted(s.cursor.decoding));
      Navigated(s1.(song := st.song, loaded := true, track := obj.data, cursor := c), true,
                Some(Hud.ImageName(obj.name)))
  }

  /** Moving on by whole frames keeps an offset on a frame boundary. */
  lemma WholeFrames(pos: int, pos': int, k: nat)
    requires pos' == pos + FrameBytes * k
    ensures pos' % FrameBytes == pos % FrameBytes
  {
  }

  /**
   * The fill part of a tick. Paused, it writes the held level and leaves
   * the cursor alone; playing, it interpolates 304 decoded samples. Either
   * way it writes exactly one buffer of bytes that fit a `signed char`.
   */
  function FillTick(paused: bool, track: seq<Byte>, dec: Decoder, c: Cursor): (r: Outcome<Fill>)
    requires Aligned(c)
    ensures r.Ok? ==>
      && Aligned(r.value.cursor)
      && |r.value.out| == BufferBytes
      && (forall i :: 0 <= i < BufferBytes ==> IsInt8(r.value.out[i]))
      && r.value.cursor.pos - c.pos == FrameBytes * r.value.refills
    ensures paused ==>
      && r.Ok? && r.value.cursor == c
      && (forall i :: 0 <= i < BufferBytes ==> r.value.out[i] == Quantize(c.lastSample))
    ensures !paused ==> r == FillGroups(track, dec, c, GroupsPerTick)
    ensures r.Ok? && 0 <= c.pos && c.pos % FrameBytes == 0 ==>
      0 <= r.value.cursor.pos && r.value.cursor.pos % FrameBytes == 0
    ensures 0 <= c.pos && c.pos % FrameBytes == 0 && |track| % FrameBytes == 0 ==> r.Ok?
  {
    if paused then
      Ok(FillPaused(c))
    else
      var r := FillGroups(track, dec, c, GroupsPerTick);
      FillGroupsInTrack(track, dec, c, GroupsPerTick);
      if r.Ok? then
        PlayingFill(track, dec, c);
        WholeFrames(c.pos, r.value.cursor.pos, r.value.refills);
        r
      else r
  }

  /**
   * Seeking moves by whole frames and only when it stays inside the track,
   * and a restart that lands inside a whole-frames track lands on a frame
   * boundary; so the input part of a tick keeps the read offset on a
   * frame boundary.
   */
  lemma NavigateOnFrames(fs: Archive, s: Engine, ctl: Controls, rule: RestartRule)
    requires Valid(fs, s)
    ensures var e := Navigate(fs, s, ctl, rule).engine;
      OnFrames(fs, s) && RestartsInside(fs, rule) ==> OnFrames(fs, e) && |e.track| % FrameBytes == 0
  {
    var n := Navigate(fs, s, ctl, rule);
    if OnFrames(fs, s) && RestartsInside(fs, rule) {
      assert |n.engine.track| % FrameBytes == 0;
      if n.started {
        RulesAgree(|n.engine.track|, L in ctl.cmd);
      } else {
        var sk := Seek(ctl.cmd, s.cursor.pos, s.loaded, |s.track|);
        assert n.engine.cursor.pos == sk.pos;
        assert s.loaded;
        assert L in ctl.cmd ==> s.cursor.pos >= SeekBytes;
      }
    }
  }

  /** The outcome of a tick: the next state, the picture requested, and the DMA register writes. */
  datatype Step = Step(engine: Engine, image: Option<string>, dmaWrites: seq<Dma.Write>)

  /**
   * One tick of the source: the key read, the input part with the
   * source's own restart offset, then the fill of the buffer DMA is not
   * streaming, then the switch of DMA to that freshly written buffer. A
   * tick that does not read outside the track leaves a valid state.
   */
  function Tick(fs: Archive, dec: Decoder, s: Engine, joy: bv16): (r: Outcome<Step>)
    requires Valid(fs, s)
    ensures r.Ok? ==> Valid(fs, r.value.engine)
  {
    TickWith(fs, dec, s, ReadControls(joy, s.lastJoy, s.locked), AsWritten)
  }

  /**
   * A tick after the key read, for whatever commands and lock bits it
   * gave, and with the restart offset `rule`. The properties below that
   * do not depend on the keys are stated for this, and so hold for every
   * tick; those that do not depend on the restart offset hold for the
   * source's tick and the corrected one alike.
   */
  function TickWith(fs: Archive, dec: Decoder, s: Engine, ctl: Controls, rule: RestartRule): (r: Outcome<Step>)
    requires Valid(fs, s)
    ensures r.Ok? ==> Valid(fs, r.value.engine)
  {
    Finish(dec, s.curBuffer, Navigate(fs, s, ctl, rule))
  }

  /**
   * The fill and the buffer switch that follow the input part of a tick.
   * Paused, it cannot fail and the cursor stays. When it succeeds, the
   * buffer `filled` holds one full buffer of bytes, DMA streams from it,
   * the other buffer is kept and becomes the next to fill, and nothing
   * else of the state or the picture request changes.
   */
  function Finish(dec: Decoder, filled: nat, nav: Navigated): (r: Outcome<Step>)
    requires Aligned(nav.engine.cursor) && filled < 2 && |nav.engine.buffers| == 2
    ensures Start in nav.engine.locked ==> r.Ok? && r.value.engine.cursor == nav.engine.cursor
    ensures r.Ok? ==>
      var e := r.value.engine;
      && e.curBuffer == 1 - filled
      && |e.buffers| == 2 && |e.buffers[filled]| == BufferBytes
      && e.buffers[1 - filled] == nav.engine.buffers[1 - filled]
      && e.dma.src == Dma.DoubleBuffer(filled)
      && r.value.image == nav.image
      && e.(cursor := nav.engine.cursor, buffers := nav.engine.buffers,
            dma := nav.engine.dma, curBuffer := nav.engine.curBuffer) == nav.engine
  {
    var e := nav.engine;
    var f :- FillTick(Start in e.locked, e.track, dec, e.cursor);
    Ok(Step(e.(cursor := f.cursor,
               buffers := e.buffers[filled := f.out],
               dma := Dma.Channel(Dma.DoubleBuffer(filled), Dma.FifoA, 1, Dma.StreamControl),
               curBuffer := 1 - filled),
            nav.image, Dma.SwitchWrites(filled)))
  }

  /**
   * The bytes go into the buffer DMA is not streaming; DMA is then pointed
   * at that freshly written buffer by the switch's register writes, from
   * whatever the registers held, and the other buffer, kept as it was,
   * becomes the next to fill. So the fill target and the DMA source never
   * meet.
   */
  lemma TickSwitchesBuffers(fs: Archive, dec: Decoder, s: Engine, ctl: Controls, rule: RestartRule)
    requires Valid(fs, s)
    ensures var r := TickWith(fs, dec, s, ctl, rule);
      r.Ok? ==>
        && r.value.engine.curBuffer == 1 - s.curBuffer
        && r.value.dmaWrites == Dma.SwitchWrites(s.curBuffer)
        && r.value.engine.dma == Dma.ApplyAll(s.dma, r.value.dmaWrites)
        && r.value.engine.dma == Dma.Channel(Dma.DoubleBuffer(s.curBuffer), Dma.FifoA, 1, 0xB640)
        && r.value.engine.buffers[1 - s.curBuffer] == s.buffers[1 - s.curBuffer]
  {
    var n := Navigate(fs, s, ctl, rule);
    assert TickWith(fs, dec, s, ctl, rule) == Finish(dec, s.curBuffer, n);
    Dma.SwitchBuffers(s.dma, s.curBuffer);
  }

  /**
   * When every track is whole frames, the read offset is on a frame
   * boundary and a restart lands inside the track it starts (always with
   * the corrected rule; with the source's only when every track is at
   * least 60 frames), a tick never reads outside the track, and that
   * stays so.
   */
  lemma TickOnFrames(fs: Archive, dec: Decoder, s: Engine, ctl: Controls, rule: RestartRule)
    requires Valid(fs, s)
    requires OnFrames(fs, s) && RestartsInside(fs, rule)
    ensures TickWith(fs, dec, s, ctl, rule).Ok? && OnFrames(fs, TickWith(fs, dec, s, ctl, rule).value.engine)
  {
    NavigateOnFrames(fs, s, ctl, rule);
  }

  /** The loop starts in a valid state, already on a frame boundary. */
  lemma InitialValid(fs: Archive, gsmWords: nat)
    requires Playable(fs)
    ensures Valid(fs, Initial(gsmWords))
    ensures FrameAligned(fs) ==> OnFrames(fs, Initial(gsmWords))
  {
  }

  /**
   * The first tick always loads track 0 and asks for its picture, whatever
   * keys are held: `cur_song` steps from `UINT_MAX` to 0, and no key but
   * the repeating L and R counts as pressed, because every key counted as
   * held before; so neither LEFT nor the lock keys can act. It reads only
   * inside the track when the tracks are whole frames and long enough for
   * the source's L restart.
   */
  lemma FirstTick(fs: Archive, dec: Decoder, gsmWords: nat, joy: bv16)
    requires Playable(fs)
    ensures Valid(fs, Initial(gsmWords))
    ensures var r := Tick(fs, dec, Initial(gsmWords), joy);
      && (FrameAligned(fs) && RestartsInside(fs, AsWritten) ==> r.Ok?)
      && (r.Ok? ==>
        && r.value.engine.loaded && r.value.engine.song == 0
        && r.value.engine.track == fs.objects[0].data
        && r.value.image == Some(Hud.ImageName(fs.objects[0].name))
        && r.value.engine.locked == {})
  {
    var s := Initial(gsmWords);
    InitialValid(fs, gsmWords);
    AllHeldBefore(joy);
    FirstTickWith(fs, dec, gsmWords, ReadControls(joy, s.lastJoy, s.locked), AsWritten);
  }

  /** The first tick under any controls that press nothing but L and R and lock nothing. */
  lemma FirstTickWith(fs: Archive, dec: Decoder, gsmWords: nat, ctl: Controls, rule: RestartRule)
    requires Playable(fs)
    requires ctl.cmd <= {R, L} && ctl.locked == {}
    ensures Valid(fs, Initial(gsmWords))
    ensures var r := TickWith(fs, dec, Initial(gsmWords), ctl, rule);
      && (FrameAligned(fs) && RestartsInside(fs, rule) ==> r.Ok?)
      && (r.Ok? ==>
        && r.value.engine.loaded && r.value.engine.song == 0
        && r.value.engine.track == fs.objects[0].data
        && r.value.image == Some(Hud.ImageName(fs.objects[0].name))
        && r.value.engine.locked == {})
  {
    var s := Initial(gsmWords);
    FirstNavigation(fs, gsmWords, ctl, rule);
    TickKeepsNavigation(fs, dec, s, ctl, rule);
    if FrameAligned(fs) && RestartsInside(fs, rule) {
      InitialValid(fs, gsmWords);
      TickOnFrames(fs, dec, s, ctl, rule);
    }
  }

  /** Before any track is loaded, when only L and R can command, the input part of a tick starts track 0. */
  lemma FirstNavigation(fs: Archive, gsmWords: nat, ctl: Controls, rule: RestartRule)
    requires Playable(fs)
    requires ctl.cmd <= {R, L} && ctl.locked == {}
    ensures Valid(fs, Initial(gsmWords))
    ensures var n := Navigate(fs, Initial(gsmWords), ctl, rule);
      && n.started && n.engine.song == 0 && n.engine.locked == {}
      && n.image == Some(Hud.ImageName(fs.objects[0].name))
  {
    InitialValid(fs, gsmWords);
    var sk := Seek(ctl.cmd, 0, false, 0);
    assert Left !in sk.cmd && Right in sk.cmd;
  }

  /** The fill part of a tick keeps the track, the lock and the picture request the input part chose. */
  lemma TickKeepsNavigation(fs: Archive, dec: Decoder, s: Engine, ctl: Controls, rule: RestartRule)
    requires Valid(fs, s)
    ensures var r, n := TickWith(fs, dec, s, ctl, rule), Navigate(fs, s, ctl, rule);
      r.Ok? ==>
        && r.value.image == n.image
        && r.value.engine.loaded == n.engine.loaded && r.value.engine.song == n.engine.song
        && r.value.engine.track == n.engine.track && r.value.engine.locked == n.engine.locked
  {
  }

  /**
   * While the lock is on, the keys do nothing but SELECT: a tick with any
   * keys that do not press SELECT behaves as a tick with no key held, apart
   * from remembering the keys.
   */
  lemma LockedIgnoresKeys(fs: Archive, dec: Decoder, s: Engine, joy: bv16)
    requires Valid(fs, s)
    requires Select in s.locked
    requires Select !in ButtonsOf(Commands(Pressed(joy), s.lastJoy))
    ensures var a, b := Tick(fs, dec, s, joy), Tick(fs, dec, s, NothingHeld);
      && a.Ok? == b.Ok?
      && (a.Ok? ==> a.value == b.value.(engine := b.value.engine.(lastJoy := Pressed(joy))))
  {
    var c1, c2 := ReadControls(joy, s.lastJoy, s.locked), ReadControls(NothingHeld, s.lastJoy, s.locked);
    LockedControls(joy, s.lastJoy, s.locked);
    NothingHeldCommandsNothing(s.lastJoy);
    LockedControls(NothingHeld, s.lastJoy, s.locked);
    NavigateByControls(fs, s, c1, c2, AsWritten);
    FinishByEngine(dec, s.curBuffer, Navigate(fs, s, c1, AsWritten), Navigate(fs, s, c2, AsWritten));
  }

  /** The fill and the switch see only the state the input part leaves, not the key word it remembers. */
  lemma FinishByEngine(dec: Decoder, filled: nat, a: Navigated, b: Navigated)
    requires Aligned(b.engine.cursor) && filled < 2 && |b.engine.buffers| == 2
    requires a.engine == b.engine.(lastJoy := a.engine.lastJoy) && a.image == b.image
    ensures var x, y := Finish(dec, filled, a), Finish(dec, filled, b);
      && x.Ok? == y.Ok?
      && (x.Ok? ==> x.value == y.value.(engine := y.value.engine.(lastJoy := a.engine.lastJoy)))
  {
  }

  /**
   * The input part of a tick sees the keys only through the commands and
   * lock bits read from them: the remembered key word is all that differs.
   */
  lemma NavigateByControls(fs: Archive, s: Engine, c1: Controls, c2: Controls, rule: RestartRule)
    requires Valid(fs, s)
    requires c1.cmd == c2.cmd && c1.locked == c2.locked
    ensures var a, b := Navigate(fs, s, c1, rule), Navigate(fs, s, c2, rule);
      a.engine == b.engine.(lastJoy := c1.lastJoy) && a.started == b.started && a.image == b.image
  {
  }

  /**
   * While the keys are locked (and SELECT is not pressed to unlock them),
   * reaching the end of a track moves on to the next one, from its start
   * and with a fresh decoder: the lock holds back the keys, not the
   * advance.
   */
  lemma EndOfTrackAdvances(fs: Archive, s: Engine, joy: bv16, rule: RestartRule)
    requires Valid(fs, s)
    requires s.loaded && s.cursor.pos >= |s.track|
    requires Select in s.locked
    requires Select !in ButtonsOf(Commands(Pressed(joy), s.lastJoy))
    ensures var n := Navigate(fs, s, ReadControls(joy, s.lastJoy, s.locked), rule);
      && n.started
      && n.engine.song == NextTrack(s.song, TrackCount(fs))
      && n.engine.cursor.pos == 0
      && n.engine.cursor.decoding == Restarted(s.cursor.decoding)
  {
    LockedControls(joy, s.lastJoy, s.locked);
  }

  /**
   * Seeking forward past the end of a track is a step to the next track:
   * the decoder is reset and playing resumes at the start of that track.
   */
  lemma SeekPastEnd(fs: Archive, s: Engine, ctl: Controls, rule: RestartRule)
    requires Valid(fs, s)
    requires s.loaded
    requires R in ctl.cmd && L !in ctl.cmd && Left !in ctl.cmd
    requires s.cursor.pos + SeekBytes >= |s.track|
    ensures var n := Navigate(fs, s, ctl, rule);
      && n.started
      && n.engine.song == NextTrack(s.song, TrackCount(fs))
      && n.engine.cursor.pos == 0
      && n.engine.cursor.decoding == Restarted(s.cursor.decoding)
  {
  }

  /**
   * A paused tick writes the held level into the whole buffer and does not
   * advance the decoding: the sample index, the last sample and the samples
   * are as before the tick, and the read offset is where the input part of
   * the tick put it.
   */
  lemma PausedTick(fs: Archive, dec: Decoder, s: Engine, ctl: Controls, rule: RestartRule)
    requires Valid(fs, s)
    requires Start in ctl.locked
    ensures var r := TickWith(fs, dec, s, ctl, rule);
      && r.Ok?
      && r.value.engine.cursor == Navigate(fs, s, ctl, rule).engine.cursor
      && r.value.engine.cursor.decodePos == s.cursor.decodePos
      && r.value.engine.cursor.lastSample == s.cursor.lastSample
      && r.value.engine.cursor.decoding.samples == s.cursor.decoding.samples
      && (forall i :: 0 <= i < BufferBytes ==>
            r.value.engine.buffers[s.curBuffer][i] == Quantize(s.cursor.lastSample))
  {
  }

  /** Playing, the fill and switch keep exactly the playing loop's bytes and cursor. */
  lemma FinishPlaying(dec: Decoder, filled: nat, nav: Navigated) returns (f: Fill)
    requires Aligned(nav.engine.cursor) && filled < 2 && |nav.engine.buffers| == 2
    requires Start !in nav.engine.locked
    ensures var r := Finish(dec, filled, nav);
      r.Ok? ==>
        && FillGroups(nav.engine.track, dec, nav.engine.cursor, GroupsPerTick) == Ok(f)
        && r.value.engine.buffers[filled] == f.out
        && r.value.engine.cursor == f.cursor
  {
    var e := nav.engine;
    var t := FillTick(Start in e.locked, e.track, dec, e.cursor);
    assert t == FillGroups(e.track, dec, e.cursor, GroupsPerTick);
    f := if t.Ok? then t.value else Fill(e.cursor, [], [], 0);
    if t.Ok? {
      var r := Finish(dec, filled, nav);
      assert r.value.engine == e.(cursor := f.cursor, buffers := e.buffers[filled := f.out],
                                  dma := Dma.Channel(Dma.DoubleBuffer(filled), Dma.FifoA, 1, Dma.StreamControl),
                                  curBuffer := 1 - filled);
    }
  }

  /**
   * What a playing tick writes into the buffer it fills: the 2:1
   * interpolation of the next 304 samples of the track it is on, decoded
   * frame after frame from the read offset the input part left, starting
   * from the sample the previous tick ended on.
   */
  lemma PlayingTickPlaysTrack(fs: Archive, dec: Decoder, s: Engine, ctl: Controls, rule: RestartRule)
    requires Valid(fs, s)
    requires Start !in ctl.locked
    ensures var e := Navigate(fs, s, ctl, rule).engine;
      var r := TickWith(fs, dec, s, ctl, rule);
      r.Ok? ==>
        r.value.engine.buffers[s.curBuffer] ==
          Interpolate(e.cursor.lastSample, Stream(e.track, dec, e.cursor, 4 * GroupsPerTick))
  {
    var f := FinishPlaying(dec, s.curBuffer, Navigate(fs, s, ctl, rule));
  }

  /**
   * A playing tick leaves the cursor where the next one continues the same
   * stream: the 304 samples this tick read followed by the next `n` from
   * the cursor it leaves are the first `304 + n` samples from the cursor it
   * started with.
   */
  lemma PlayingTickResumes(fs: Archive, dec: Decoder, s: Engine, ctl: Controls, rule: RestartRule, n: nat)
    requires Valid(fs, s)
    requires Start !in ctl.locked
    ensures var e := Navigate(fs, s, ctl, rule).engine;
      var r := TickWith(fs, dec, s, ctl, rule);
      r.Ok? ==>
        Stream(e.track, dec, e.cursor, 4 * GroupsPerTick + n) ==
          Stream(e.track, dec, e.cursor, 4 * GroupsPerTick) + Stream(e.track, dec, r.value.engine.cursor, n)
  {
    var e := Navigate(fs, s, ctl, rule).engine;
    var f := FinishPlaying(dec, s.curBuffer, Navigate(fs, s, ctl, rule));
    if TickWith(fs, dec, s, ctl, rule).Ok? {
      FillContinuesStream(e.track, dec, e.cursor, GroupsPerTick, f, n);
    }
  }

  /** A playing tick's last byte is the level of the last sample it consumed. */
  lemma PlayingTickEndsOnLastSample(fs: Archive, dec: Decoder, s: Engine, ctl: Controls, rule: RestartRule)
    requires Valid(fs, s)
    requires Start !in ctl.locked
    ensures var r := TickWith(fs, dec, s, ctl, rule);
      r.Ok? ==> r.value.engine.buffers[s.curBuffer][BufferBytes - 1] == Quantize(r.value.engine.cursor.lastSample)
  {
    var n := Navigate(fs, s, ctl, rule);
    var f := FinishPlaying(dec, s.curBuffer, n);
    PlayingFill(n.engine.track, dec, n.engine.cursor);
  }

  /**
   * Pausing holds the level the sound stopped at: every byte a paused tick
   * writes equals the last byte the playing tick before it wrote.
   */
  lemma PauseHoldsLastByte(fs: Archive, dec: Decoder, s: Engine, c1: Controls, c2: Controls, rule: RestartRule)
    requires Valid(fs, s)
    requires Start !in c1.locked && Start in c2.locked
    ensures var played := TickWith(fs, dec, s, c1, rule);
      played.Ok? ==>
        var e1 := played.value.engine;
        var r, last := TickWith(fs, dec, e1, c2, rule), e1.buffers[s.curBuffer][BufferBytes - 1];
        r.Ok? && forall i :: 0 <= i < BufferBytes ==> r.value.engine.buffers[e1.curBuffer][i] == last
  {
    var played := TickWith(fs, dec, s, c1, rule);
    if played.Ok? {
      PlayingTickEndsOnLastSample(fs, dec, s, c1, rule);
      PausedTick(fs, dec, played.value.engine, c2, rule);
    }
  }

  /**
   * The restart offset as written sends a track shorter than 60 frames,
   * started with L held, to an offset before its first byte; the same
   * tick's fill then decodes from there, outside the track, whatever the
   * decoder and the state of the sample buffer.
   */
  lemma RestartAsWrittenReadsBeforeTrack(track: seq<Byte>, dec: Decoder, c: Cursor)
    requires Aligned(c)
    requires |track| < RestartBack
    ensures var p := RestartOffsetAsWritten(|track|, true);
      FillGroups(track, dec, c.(pos := p), GroupsPerTick) == OutOfTrack(|track| - RestartBack)
  {
    RefillBeforeTrack(track, dec, c.(pos := RestartOffsetAsWritten(|track|, true)), GroupsPerTick);
  }

  /** The corrected restart never does so: that tick's fill reads only inside a whole-frames track. */
  lemma RestartReadsInsideTrack(track: seq<Byte>, dec: Decoder, c: Cursor, back: bool)
    requires Aligned(c)
    requires |track| % FrameBytes == 0
    ensures FillGroups(track, dec, c.(pos := RestartOffset(|track|, back)), GroupsPerTick).Ok?
  {
    FillGroupsInTrack(track, dec, c.(pos := RestartOffset(|track|, back)), GroupsPerTick);
  }

  /**
   * The source's tick that starts a track shorter than 60 frames with L
   * held, and is not paused, decodes before the track's first byte.
   */
  lemma AsWrittenRestartFails(fs: Archive, dec: Decoder, s: Engine, ctl: Controls)
    requires Valid(fs, s)
    requires Start !in ctl.locked && L in ctl.cmd
    ensures var n := Navigate(fs, s, ctl, AsWritten);
      n.started && |n.engine.track| < RestartBack ==>
        TickWith(fs, dec, s, ctl, AsWritten) == OutOfTrack(|n.engine.track| - RestartBack)
  {
    var n := Navigate(fs, s, ctl, AsWritten);
    if n.started && |n.engine.track| < RestartBack {
      RestartAsWrittenReadsBeforeTrack(n.engine.track, dec, n.engine.cursor);
    }
  }

  /**
   * The same tick with the corrected restart reads only inside the track
   * it starts, whatever the offset before it, when the tracks are whole
   * frames.
   */
  lemma CorrectedRestartPlays(fs: Archive, dec: Decoder, s: Engine, ctl: Controls)
    requires Valid(fs, s)
    requires FrameAligned(fs)
    ensures Navigate(fs, s, ctl, Corrected).started ==> TickWith(fs, dec, s, ctl, Corrected).Ok?
  {
    var n := Navigate(fs, s, ctl, Corrected);
    if n.started && Start !in ctl.locked {
      RestartReadsInsideTrack(n.engine.track, dec, n.engine.cursor, L in ctl.cmd);
    }
  }
}

=== FILE: resampler.dfy ===
/**
 * The sound-buffer fill of one tick (gsmplay.c `streaming_run`, the two
 * fill loops): 2:1 linear interpolation of the decoded samples while
 * playing, and a constant hold of the last sample while paused.
 *
 * One tick fills 608 bytes. At one output sample per 462 CPU cycles
 * (timer 0 reloads at 0x10000 - 924/2) that is 280896 cycles, one full
 * display frame of 228 lines of 1232 cycles.
 */
module Resampler {
  import opened Machine
  import opened Gsm

  /** Bytes in one of the two sound buffers. */
  const BufferBytes := 608

  /** Iterations of the playing loop: 304 decoded samples, four per iteration. */
  const GroupsPerTick := 76

  /**
   * The decoding position the fill carries from tick to tick: the offset of
   * the next compressed frame in the track (`src_pos - src`, which may be
   * negative or past the end), the next unread index of `out_samples`, the
   * last sample emitted, the samples of the current frame, and the decoder.
   */
  datatype Cursor = Cursor(pos: int, decodePos: nat, lastSample: Int16, decoding: Decoding)

  /** The samples are read four at a time, so the read index stays on a multiple of four. */
  predicate Aligned(c: Cursor) {
    c.decodePos % 4 == 0 && c.decodePos <= FrameSamples
  }

  /** The sample before the `k`-th of `xs`, which is `prev` for the first. */
  function Before(prev: Int16, xs: seq<Int16>, k: nat): Int16
    requires k < |xs|
  {
    if k == 0 then prev else xs[k - 1]
  }

  /** The last sample of `xs`, or `prev` when there is none. */
  function Last(prev: Int16, xs: seq<Int16>): Int16 {
    if xs == [] then prev else xs[|xs| - 1]
  }

  /**
   * 2:1 linear interpolation of the sample stream `xs` following `prev`:
   * two output bytes per sample, the first the quantized average of the
   * sample and the one before it, the second the quantized sample itself.
   */
  function Interpolate(prev: Int16, xs: seq<Int16>): (out: seq<int>)
    decreases |xs|
  {
    if xs == [] then [] else [Midpoint(prev, xs[0]), Quantize(xs[0])] + Interpolate(xs[0], xs[1..])
  }

  /** Position by position: byte `2k` is the midpoint before sample `k`, byte `2k + 1` the sample. */
  lemma {:induction false} InterpolateAt(prev: Int16, xs: seq<Int16>, k: nat)
    requires k < |xs|
    decreases k
    ensures |Interpolate(prev, xs)| == 2 * |xs|
    ensures Interpolate(prev, xs)[2 * k] == Midpoint(Before(prev, xs, k), xs[k])
    ensures Interpolate(prev, xs)[2 * k + 1] == Quantize(xs[k])
  {
    InterpolateLength(prev, xs);
    if k > 0 {
      InterpolateAt(xs[0], xs[1..], k - 1);
      assert Before(xs[0], xs[1..], k - 1) == Before(prev, xs, k);
    }
  }

  lemma {:induction false} InterpolateLength(prev: Int16, xs: seq<Int16>)
    decreases |xs|
    ensures |Interpolate(prev, xs)| == 2 * |xs|
  {
    if xs != [] {
      InterpolateLength(xs[0], xs[1..]);
    }
  }

  /** Interpolating two stretches of a stream one after the other interpolates the whole stream. */
  lemma {:induction false} InterpolateAppend(prev: Int16, xs: seq<Int16>, ys: seq<Int16>)
    decreases |xs|
    ensures Interpolate(prev, xs + ys) == Interpolate(prev, xs) + Interpolate(Last(prev, xs), ys)
  {
    if xs != [] {
      assert (xs + ys)[0] == xs[0];
      assert (xs + ys)[1..] == xs[1..] + ys;
      InterpolateAppend(xs[0], xs[1..], ys);
      assert Last(xs[0], xs[1..]) == Last(prev, xs);
    } else {
      assert xs + ys == ys;
    }
  }

  /** The last sample after two stretches is the last of the second, counted from the last of the first. */
  lemma LastAppend(prev: Int16, xs: seq<Int16>, ys: seq<Int16>)
    ensures Last(prev, xs + ys) == Last(Last(prev, xs), ys)
  {
    if ys == [] {
      assert xs + ys == xs;
    }
  }

  /** Every byte of an interpolated stream fits a `signed char`, and the last is the last sample. */
  lemma {:induction false} InterpolatedBytes(prev: Int16, xs: seq<Int16>)
    decreases |xs|
    ensures var out := Interpolate(prev, xs);
      && (forall i :: 0 <= i < |out| ==> IsInt8(out[i]))
      && (xs != [] ==> out[|out| - 1] == Quantize(Last(prev, xs)))
  {
    if xs != [] {
      InterpolatedBytes(xs[0], xs[1..]);
      InterpolateLength(xs[0], xs[1..]);
      var head := [Midpoint(prev, xs[0]), Quantize(xs[0])];
      var out := Interpolate(prev, xs);
      assert out == head + Interpolate(xs[0], xs[1..]);
      forall i | 0 <= i < |out| ensures IsInt8(out[i]) {
        if i >= 2 {
          assert out[i] == Interpolate(xs[0], xs[1..])[i - 2];
        }
      }
      if |xs| > 1 {
        assert Last(xs[0], xs[1..]) == Last(prev, xs);
      }
    }
  }

  /** The output bytes of one decoded sample `s` following `last`. */
  function EmitSample(last: Int16, s: Int16): (out: seq<int>)
    ensures out == Interpolate(last, [s])
  {
    [Midpoint(last, s), Quantize(s)]
  }

  /** One iteration of the playing loop: four samples, eight bytes. */
  function EmitGroup(c: Cursor): (r: (Cursor, seq<int>))
    requires Aligned(c) && c.decodePos < FrameSamples
    ensures var xs := c.decoding.samples[c.decodePos..c.decodePos + 4];
      && r.1 == Interpolate(c.lastSample, xs)
      && r.0 == c.(decodePos := c.decodePos + 4, lastSample := Last(c.lastSample, xs))
  {
    var d := c.decodePos;
    var s := c.decoding.samples;
    var o0, o1, o2, o3 := EmitSample(c.lastSample, s[d]), EmitSample(s[d], s[d + 1]),
                          EmitSample(s[d + 1], s[d + 2]), EmitSample(s[d + 2], s[d + 3]);
    InterpolateAppend(c.lastSample, [s[d]], [s[d + 1]]);
    InterpolateAppend(c.lastSample, [s[d], s[d + 1]], [s[d + 2]]);
    InterpolateAppend(c.lastSample, [s[d], s[d + 1], s[d + 2]], [s[d + 3]]);
    assert [s[d]] + [s[d + 1]] == [s[d], s[d + 1]];
    assert [s[d], s[d + 1]] + [s[d + 2]] == [s[d], s[d + 1], s[d + 2]];
    assert [s[d], s[d + 1], s[d + 2]] + [s[d + 3]] == [s[d], s[d + 1], s[d + 2], s[d + 3]];
    assert s[d..d + 4] == [s[d], s[d + 1], s[d + 2], s[d + 3]];
    (c.(decodePos := d + 4, lastSample := s[d + 3]), o0 + o1 + o2 + o3)
  }

  /**
   * The decoder's state and samples after a refill at track offset `pos`:
   * a frame wholly inside the track is decoded, unless the decoder rejects
   * it; at or past the end the stale samples stay. (An offset before the
   * track, or a frame that runs over the end, is where `Refill` reports the
   * read outside the track; the value here is then never used.)
   */
  function NextFrame(track: seq<Byte>, dec: Decoder, d: Decoding, pos: int): Decoding {
    if 0 <= pos && pos + FrameBytes <= |track| then
      match dec(d.gsm, track[pos..pos + FrameBytes])
      case Decoded(g, f) => Decoding(g, f)
      case Malformed => d
    else d
  }

  /** The decoding after `m` refills, frame after frame, from offset `pos`. */
  function DecodingAfter(track: seq<Byte>, dec: Decoder, d: Decoding, pos: int, m: nat): Decoding
    decreases m
  {
    if m == 0 then d else DecodingAfter(track, dec, NextFrame(track, dec, d, pos), pos + FrameBytes, m - 1)
  }

  /**
   * The `p`-th sample of the stream a cursor plays, counted from the first
   * sample of its current frame: sample `p % 160` of the frame decoded
   * after `p / 160` more refills.
   */
  function StreamSample(track: seq<Byte>, dec: Decoder, c: Cursor, p: nat): Int16 {
    DecodingAfter(track, dec, c.decoding, c.pos, p / FrameSamples).samples[p % FrameSamples]
  }

  /** The next `n` samples a cursor plays, from its read index on. */
  function Stream(track: seq<Byte>, dec: Decoder, c: Cursor, n: nat): (xs: seq<Int16>)
    ensures |xs| == n
  {
    seq<Int16>(n, i requires 0 <= i < n => StreamSample(track, dec, c, c.decodePos + i))
  }

  /** A sample a whole frame on is the same sample after one refill. */
  lemma StreamAfterRefill(track: seq<Byte>, dec: Decoder, c: Cursor, c1: Cursor, p: nat)
    requires p >= FrameSamples
    requires c1.pos == c.pos + FrameBytes && c1.decoding == NextFrame(track, dec, c.decoding, c.pos)
    ensures StreamSample(track, dec, c, p) == StreamSample(track, dec, c1, p - FrameSamples)
  {
    var q := p - FrameSamples;
    assert p / FrameSamples == q / FrameSamples + 1 && p % FrameSamples == q % FrameSamples;
  }

  /** Refills compose: `a + b` of them are `b` more after the first `a`, from `a` frames on. */
  lemma {:induction false} DecodingAfterAdd(track: seq<Byte>, dec: Decoder, d: Decoding, pos: int, a: nat, b: nat)
    decreases a
    ensures DecodingAfter(track, dec, d, pos, a + b) ==
      DecodingAfter(track, dec, DecodingAfter(track, dec, d, pos, a), pos + FrameBytes * a, b)
  {
    if a > 0 {
      DecodingAfterAdd(track, dec, NextFrame(track, dec, d, pos), pos + FrameBytes, a - 1, b);
    }
  }

  /**
   * A cursor that is `m` refills further on plays the same stream, shifted
   * by the `m` frames those refills used up.
   */
  lemma StreamAcross(track: seq<Byte>, dec: Decoder, c: Cursor, c': Cursor, m: nat, q: nat)
    requires c'.pos == c.pos + FrameBytes * m
    requires c'.decoding == DecodingAfter(track, dec, c.decoding, c.pos, m)
    ensures StreamSample(track, dec, c, FrameSamples * m + q) == StreamSample(track, dec, c', q)
  {
    var p := FrameSamples * m + q;
    assert p / FrameSamples == m + q / FrameSamples && p % FrameSamples == q % FrameSamples;
    DecodingAfterAdd(track, dec, c.decoding, c.pos, m, q / FrameSamples);
  }

  /**
   * The refill at the top of each iteration of the playing loop. It is
   * taken only once the current frame is used up. It decodes the frame at
   * the read offset only while that offset is before the end of the track;
   * past the end, the stale samples of the previous frame are replayed.
   * Either way the offset moves on by one frame. A frame the decoder
   * rejects leaves the decoder and the samples as they were. Decoding a
   * frame that is not wholly inside the track is where the C code would
   * read other memory; the model reports it instead.
   */
  function Refill(track: seq<Byte>, dec: Decoder, c: Cursor): (r: Outcome<Cursor>)
    requires Aligned(c)
    ensures r.Ok? ==> Aligned(r.value) && r.value.decodePos < FrameSamples
    ensures c.decodePos < FrameSamples ==> r == Ok(c)
    ensures c.decodePos == FrameSamples ==>
      (r.OutOfTrack? <==> c.pos < |track| && (c.pos < 0 || |track| < c.pos + FrameBytes))
    ensures c.decodePos == FrameSamples && r.Ok? ==>
      && r.value.pos == c.pos + FrameBytes
      && r.value.decodePos == 0
      && r.value.lastSample == c.lastSample
    ensures c.decodePos == FrameSamples && |track| <= c.pos ==> r.Ok? && r.value.decoding == c.decoding
    ensures c.decodePos == FrameSamples && 0 <= c.pos && c.pos + FrameBytes <= |track| ==>
      && r.Ok?
      && match dec(c.decoding.gsm, track[c.pos..c.pos + FrameBytes])
         case Decoded(g, f) => r.value.decoding == Decoding(g, f)
         case Malformed => r.value.decoding == c.decoding
    ensures c.decodePos == FrameSamples && r.Ok? ==> r.value.decoding == NextFrame(track, dec, c.decoding, c.pos)
  {
    if c.decodePos < FrameSamples then Ok(c)
    else if |track| <= c.pos then Ok(c.(pos := c.pos + FrameBytes, decodePos := 0))
    else if c.pos < 0 || |track| < c.pos + FrameBytes then OutOfTrack(c.pos)
    else
      var c1 := match dec(c.decoding.gsm, track[c.pos..c.pos + FrameBytes])
        case Decoded(g, f) => c.(decoding := Decoding(g, f))
        case Malformed => c;
      Ok(c1.(pos := c.pos + FrameBytes, decodePos := 0))
  }

  /**
   * What a fill produced: the cursor after it, the bytes written, the
   * decoded samples read in order, and how many times it moved to a new
   * frame. The last two are not kept by the source; they let the contracts
   * say what the bytes are.
   */
  datatype Fill = Fill(cursor: Cursor, out: seq<int>, consumed: seq<Int16>, refills: nat)

  /** A whole number of frames, starting inside the track, ends on a frame boundary inside it. */
  lemma FrameFits(pos: int, len: nat)
    requires 0 <= pos < len
    requires pos % FrameBytes == 0 && len % FrameBytes == 0
    ensures pos + FrameBytes <= len
  {
  }

  /**
   * What `groups` iterations of the playing loop from `c` produce, when they
   * stay inside the track. The samples read are the track's own stream: the
   * next `4 * groups` samples of the frames decoded one after the other from
   * the read offset, continuing from the read index. The bytes written are
   * their interpolation, continuing from the last sample of the previous
   * fill; each refill moves the read offset on by exactly one frame, the
   * decoder state and samples left for the next fill are those of the
   * frames decoded so far, and the read index ends inside a frame.
   */
  ghost predicate IsFill(track: seq<Byte>, dec: Decoder, c: Cursor, groups: nat, f: Fill) {
    && Aligned(f.cursor)
    && f.consumed == Stream(track, dec, c, 4 * groups)
    && f.out == Interpolate(c.lastSample, f.consumed)
    && f.cursor.lastSample == Last(c.lastSample, f.consumed)
    && c.decodePos + 4 * groups == FrameSamples * f.refills + f.cursor.decodePos
    && f.cursor.pos == c.pos + FrameBytes * f.refills
    && f.cursor.decoding == DecodingAfter(track, dec, c.decoding, c.pos, f.refills)
    && (groups == 0 ==> f.refills == 0)
    && (groups > 0 ==> f.cursor.decodePos > 0)
  }

  /** `groups` iterations of the playing loop; a refill outside the track ends them. */
  function FillGroups(track: seq<Byte>, dec: Decoder, c: Cursor, groups: nat): (r: Outcome<Fill>)
    requires Aligned(c)
    decreases groups
    ensures r.Ok? ==> IsFill(track, dec, c, groups, r.value)
  {
    if groups == 0 then Ok(Fill(c, [], [], 0))
    else
      match Refill(track, dec, c)
      case OutOfTrack(offset) => OutOfTrack(offset)
      case Ok(c1) =>
        match FillGroups(track, dec, EmitGroup(c1).0, groups - 1)
        case OutOfTrack(offset) => OutOfTrack(offset)
        case Ok(rest) => Ok(Prepend(track, dec, c, c1, groups, rest))
  }

  /**
   * One iteration of the playing loop, whose refill left `c1`, put in front
   * of the fill `rest` that the following iterations made.
   */
  function Prepend(track: seq<Byte>, dec: Decoder, c: Cursor, c1: Cursor, groups: nat, rest: Fill): (r: Fill)
    requires Aligned(c) && groups > 0 && Refill(track, dec, c) == Ok(c1)
    requires IsFill(track, dec, EmitGroup(c1).0, groups - 1, rest)
    ensures IsFill(track, dec, c, groups, r)
  {
    var xs := c1.decoding.samples[c1.decodePos..c1.decodePos + 4];
    var c2 := EmitGroup(c1).0;
    assert c1.lastSample == c.lastSample;
    assert c2.decodePos == c1.decodePos + 4 && c2.pos == c1.pos && c2.lastSample == Last(c.lastSample, xs);
    DecodingStep(track, dec, c, c1, rest.refills);
    StreamStep(track, dec, c, c1, groups);
    InterpolateAppend(c.lastSample, xs, rest.consumed);
    LastAppend(c.lastSample, xs, rest.consumed);
    Fill(rest.cursor, EmitGroup(c1).1 + rest.out, xs + rest.consumed,
         rest.refills + if c.decodePos == FrameSamples then 1 else 0)
  }

  /** The decoding `k` refills after a refill is the one `k` refills, plus the one taken, before it. */
  lemma DecodingStep(track: seq<Byte>, dec: Decoder, c: Cursor, c1: Cursor, k: nat)
    requires Aligned(c) && Refill(track, dec, c) == Ok(c1)
    ensures c1.pos == c.pos + FrameBytes * (if c.decodePos == FrameSamples then 1 else 0)
    ensures DecodingAfter(track, dec, c1.decoding, c1.pos, k) ==
      DecodingAfter(track, dec, c.decoding, c.pos, k + if c.decodePos == FrameSamples then 1 else 0)
  {
  }

  /**
   * A fill hands over exactly where it stopped: what the next fill reads
   * from the cursor it leaves continues the same stream of decoded
   * samples, with nothing skipped and nothing read twice.
   */
  lemma FillContinuesStream(track: seq<Byte>, dec: Decoder, c: Cursor, groups: nat, f: Fill, n: nat)
    requires IsFill(track, dec, c, groups, f)
    ensures Stream(track, dec, c, 4 * groups + n) == f.consumed + Stream(track, dec, f.cursor, n)
  {
    var ys := Stream(track, dec, f.cursor, n);
    forall i | 0 <= i < 4 * groups + n
      ensures StreamSample(track, dec, c, c.decodePos + i) == (f.consumed + ys)[i]
    {
      if i >= 4 * groups {
        StreamAcross(track, dec, c, f.cursor, f.refills, f.cursor.decodePos + (i - 4 * groups));
      }
    }
  }

  /**
   * When the read offset starts on a frame boundary inside (or past) a
   * track that is a whole number of frames, no decode ever reads outside
   * the track.
   */
  lemma {:induction false} FillGroupsInTrack(track: seq<Byte>, dec: Decoder, c: Cursor, groups: nat)
    requires Aligned(c)
    decreases groups
    ensures 0 <= c.pos && c.pos % FrameBytes == 0 && |track| % FrameBytes == 0 ==>
      FillGroups(track, dec, c, groups).Ok?
  {
    if groups > 0 && 0 <= c.pos && c.pos % FrameBytes == 0 && |track| % FrameBytes == 0 {
      var c1 := RefillInTrack(track, dec, c);
      var c2 := EmitGroup(c1).0;
      assert 0 <= c2.pos && c2.pos % FrameBytes == 0;
      FillGroupsInTrack(track, dec, c2, groups - 1);
      FillGroupsOk(track, dec, c, c1, groups);
    }
  }

  /** A fill succeeds when its first refill does and the rest of the fill after that group does. */
  lemma FillGroupsOk(track: seq<Byte>, dec: Decoder, c: Cursor, c1: Cursor, groups: nat)
    requires Aligned(c) && groups > 0 && Refill(track, dec, c) == Ok(c1)
    requires FillGroups(track, dec, EmitGroup(c1).0, groups - 1).Ok?
    ensures FillGroups(track, dec, c, groups).Ok?
  {
  }

  /** The stream of a cursor is the group its refill leads to read, then the stream after that group. */
  lemma StreamStep(track: seq<Byte>, dec: Decoder, c: Cursor, c1: Cursor, groups: nat)
    requires Aligned(c) && Refill(track, dec, c) == Ok(c1) && groups > 0
    ensures Stream(track, dec, c, 4 * groups) ==
      c1.decoding.samples[c1.decodePos..c1.decodePos + 4] + Stream(track, dec, EmitGroup(c1).0, 4 * (groups - 1))
  {
    var xs := c1.decoding.samples[c1.decodePos..c1.decodePos + 4];
    var ys := Stream(track, dec, EmitGroup(c1).0, 4 * (groups - 1));
    forall i | 0 <= i < 4 * groups
      ensures StreamSample(track, dec, c, c.decodePos + i) == (xs + ys)[i]
    {
      StreamStepAt(track, dec, c, c1, i);
    }
  }

  /** Sample by sample: the first four come from the refilled frame, the rest from the stream after them. */
  lemma StreamStepAt(track: seq<Byte>, dec: Decoder, c: Cursor, c1: Cursor, i: nat)
    requires Aligned(c) && Refill(track, dec, c) == Ok(c1)
    ensures i < 4 ==> StreamSample(track, dec, c, c.decodePos + i) == c1.decoding.samples[c1.decodePos + i]
    ensures i >= 4 ==>
      StreamSample(track, dec, c, c.decodePos + i) ==
      StreamSample(track, dec, EmitGroup(c1).0, EmitGroup(c1).0.decodePos + (i - 4))
  {
    if c.decodePos == FrameSamples {
      StreamAfterRefill(track, dec, c, c1, c.decodePos + i);
    }
    if i < 4 {
      assert (c1.decodePos + i) / FrameSamples == 0;
    }
  }

  /** From a frame boundary of a whole-frames track, a refill stays inside the track and on a boundary. */
  lemma RefillInTrack(track: seq<Byte>, dec: Decoder, c: Cursor) returns (c1: Cursor)
    requires Aligned(c)
    requires 0 <= c.pos && c.pos % FrameBytes == 0 && |track| % FrameBytes == 0
    ensures Refill(track, dec, c) == Ok(c1)
    ensures 0 <= c1.pos && c1.pos % FrameBytes == 0 && c1.decodePos < FrameSamples
  {
    if c.decodePos == FrameSamples && c.pos < |track| {
      FrameFits(c.pos, |track|);
    }
    c1 := Refill(track, dec, c).value;
  }

  /**
   * The paused fill of one tick: 152 rounds of four copies of the last
   * sample, quantized. The cursor does not move.
   */
  function FillPaused(c: Cursor): (f: Fill)
    ensures |f.out| == BufferBytes
    ensures forall i :: 0 <= i < |f.out| ==> f.out[i] == Quantize(c.lastSample) && IsInt8(f.out[i])
    ensures f.cursor == c && f.consumed == [] && f.refills == 0
  {
    Fill(c, seq(BufferBytes, _ => Quantize(c.lastSample)), [], 0)
  }

  /** The byte-level facts about any number of iterations of the playing loop. */
  lemma {:induction false} FillBytes(track: seq<Byte>, dec: Decoder, c: Cursor, groups: nat)
    requires Aligned(c)
    requires FillGroups(track, dec, c, groups).Ok?
    ensures var f := FillGroups(track, dec, c, groups).value;
      && |f.out| == 8 * groups
      && (forall i :: 0 <= i < |f.out| ==> IsInt8(f.out[i]))
      && (groups > 0 ==> f.out[|f.out| - 1] == Quantize(f.cursor.lastSample))
  {
    var f := FillGroups(track, dec, c, groups).value;
    InterpolatedBytes(c.lastSample, f.consumed);
    InterpolateLength(c.lastSample, f.consumed);
  }

  /**
   * A playing tick writes exactly one buffer of bytes that fit the FIFO,
   * reads 304 samples, and moves to a new frame once or twice. Its last
   * byte is the quantized last sample it read.
   */
  lemma PlayingFill(track: seq<Byte>, dec: Decoder, c: Cursor)
    requires Aligned(c)
    ensures var r := FillGroups(track, dec, c, GroupsPerTick);
      r.Ok? ==>
      var f := r.value;
      && |f.out| == BufferBytes
      && (forall i :: 0 <= i < |f.out| ==> IsInt8(f.out[i]))
      && |f.consumed| == 304
      && 1 <= f.refills <= 2
      && f.out[BufferBytes - 1] == Quantize(f.cursor.lastSample)
  {
    var r := FillGroups(track, dec, c, GroupsPerTick);
    if r.Ok? {
      FillBytes(track, dec, c, GroupsPerTick);
      RefillsPerTick(c.decodePos, r.value.cursor.decodePos, r.value.refills);
    }
  }

  /** 304 samples from a read index in one frame to a nonzero read index in another span one or two frame changes. */
  lemma RefillsPerTick(from: nat, to: nat, refills: nat)
    requires from <= FrameSamples && 0 < to <= FrameSamples
    requires from + 304 == FrameSamples * refills + to
    ensures 1 <= refills <= 2
  {
  }

  /**
   * From an offset before the track, the first refill decodes there: every
   * fill that reaches a refill reads outside the track. A playing tick
   * always reaches one, since it reads 304 samples and a frame holds 160.
   */
  lemma {:induction false} RefillBeforeTrack(track: seq<Byte>, dec: Decoder, c: Cursor, groups: nat)
    requires Aligned(c)
    requires c.pos < 0
    requires c.decodePos + 4 * groups > FrameSamples
    decreases groups
    ensures FillGroups(track, dec, c, groups) == OutOfTrack(c.pos)
  {
    if c.decodePos < FrameSamples {
      var (c2, _) := EmitGroup(c);
      RefillBeforeTrack(track, dec, c2, groups - 1);
      FailurePassesThrough(track, dec, c, groups);
    } else {
      FailsAtRefill(track, dec, c, groups);
    }
  }

  /** A fill that starts with a refill outside the track fails there. */
  lemma FailsAtRefill(track: seq<Byte>, dec: Decoder, c: Cursor, groups: nat)
    requires Aligned(c) && groups > 0
    requires Refill(track, dec, c).OutOfTrack?
    ensures FillGroups(track, dec, c, groups) == OutOfTrack(Refill(track, dec, c).offset)
  {
  }

  /** Within a frame, a fill fails exactly where the iterations after the first fail. */
  lemma FailurePassesThrough(track: seq<Byte>, dec: Decoder, c: Cursor, groups: nat)
    requires Aligned(c) && c.decodePos < FrameSamples && groups > 0
    ensures var rest := FillGroups(track, dec, EmitGroup(c).0, groups - 1);
      rest.OutOfTrack? ==> FillGroups(track, dec, c, groups) == rest
  {
  }
}
